=== FILE: README.md ===
# dockerfile-parser in Dafny

A model of `dockerfile_parser/parser.py`, which turns a Dockerfile into
nested, insertion-ordered dictionaries. It has three stages:

1. `_parse_raw_dockerfile` filters the file's lines and joins
   continuation lines into logical lines.
2. `_get_dist_name` finds the name in the first line whose first space-separated part, stripped, is `FROM`.
3. `parse` walks the logical lines one instruction at a time. MAINTAINER,
   LABEL, EXPOSE, ENV and VOLUME write a field of the current stage (or,
   without container ids, of the document itself). RUN, CMD, ADD, COPY and
   ENTRYPOINT write into the bucket of the current `WORKDIR` and `USER`
   below it, or straight into the document when it re-parses ONBUILD lines.
   The parser stops at the first unknown keyword, and it re-parses every
   `ONBUILD` argument gathered so far as a document of its own.

## Modules

- `Strings` (`Strings.dfy`) models the Python 2 string operations the parser
  uses: `split()`, `split(' ')`, `strip`, `rstrip`, `upper`,
  `' '.join` and `''.join`. It also holds their round-trip lemmas.
- `Document` (`Document.dfy`) models the output:
  - an `OrderedDict` (`ODict`, its key order plus a map);
  - one dictionary of fields (`Block`), with its lazily created
    `workdir -> user -> bucket` levels;
  - field values (`Node`);
  - the result of `parse` (`Doc`): one flat root, or the stages keyed by
    container id.
- `Wellformed` (`Wellformed.dfy`) proves that every dictionary `parse`
  builds is a well-formed OrderedDict at every level. Each key order lists
  exactly the entries, once each, and `workdir` is listed exactly when the
  workdir level exists. So the key-order lemmas of `ParserProperties` are
  statements about the entries.
- `Lines` (`Lines.dfy`) models `_parse_raw_dockerfile`:
  - `Reconstruct` is what it returns.
  - The method `ParseRawDockerfile` is its loop, proved to compute
    `Reconstruct`.
  - Lemmas give the number, text and shape of the logical lines.
- `FieldTable` (`FieldTable.dfy`) writes out which field each instruction
  writes, at which level and from which start value, and proves that the
  field writes of `parse` follow it.
- `Commands` (`Commands.dfy`) models `_INSTRUCTIONS` and the tokenisation
  of one command (`Tokenize`: no token, an unknown keyword, or an
  instruction with its argument). It also models `_get_dist_name`: the
  specification `FirstFromName`, and the loop `DistName` proved to compute
  it.
- `Parser` (`Parser.dfy`) models `parse`:
  - The specification functions, from one step to a whole call: `Open` (the
    lazy creation of stage and bucket), `Dispatch` (the `if/elif` chain),
    `Settle` (the ONBUILD refresh and write-back), `Recognised`, `Step`,
    `Exec` and `Run`.
  - The methods `Apply`, `WriteField`, `OpenStruct`, `Iterate`, `Parse` and
    `ParseDockerfile` are the loop body and the loop. They are written over
    variables that mirror the source's and are proved to compute those
    functions.
  - A command without a token makes `split[0]` raise IndexError. The model
    returns `None` for it, and the failure of a nested ONBUILD re-parse
    propagates the same way.
- `ParserProperties` (`ParserProperties.dfy`) holds what one iteration and a
  whole run guarantee:
  - which commands raise, and that an unknown keyword stops the loop;
  - the effect of FROM with and without container ids;
  - the effect of USER and WORKDIR;
  - the ONBUILD refresh, and that ONBUILD lines only ever grow;
  - that dictionaries only ever gain keys, and that existing buckets and
    other stages are kept, unless a FROM draws the id of an existing stage;
  - that the document returned is well formed at every level;
  - that a Dockerfile without ONBUILD always parses, while an ONBUILD
    without argument raises when no ONBUILD line came before it.

Behaviour the model reproduces from the code as written:

- A comment is a line whose very first character is `#`. An indented `#`
  line is an instruction line.
- A line continues when its last non-whitespace character is a backslash,
  so whitespace after the backslash still continues the line.
- The lines of a run are joined with no separator, and the backslashes are
  kept.
- A file that ends in the middle of a continuation loses that last run.
- `_get_dist_name` compares the first space-separated part, stripped, with
  `FROM` case-sensitively. So `FROMAGE x` gives no name, while a line
  starting with a tab before `FROM x` gives `x`. The keyword match of
  `parse` upper-cases the keyword first, so `from x` is a FROM instruction
  but gives no distribution name.
- The ONBUILD lines are never cleared. With container ids, every later stage
  that has a recognised instruction after its FROM receives the ONBUILD
  lines of the stages before it. The refresh of the FROM iteration itself
  goes to the stage that was current before it.
- With container ids, a FROM whose new id equals the current one replaces
  that stage. The write of `onbuild` for that iteration then goes to the
  dictionary that is no longer stored, and is lost.

## Model

| member | source | states |
|---|---|---|
| Strings.RStrip | dockerfile_parser/parser.py:58 | `rstrip()` returns a prefix that does not end in whitespace, and only whitespace was removed |
| Strings.LStrip | dockerfile_parser/parser.py:39 | `lstrip()` returns a suffix that does not start in whitespace, and only whitespace was removed |
| Strings.Strip | dockerfile_parser/parser.py:55 | `strip()` is empty exactly when the string is blank; otherwise it starts and ends with a non-whitespace character |
| Strings.StripInfix | dockerfile_parser/parser.py:55 | what `strip()` keeps is an infix of the string, and everything before and after it is whitespace |
| Strings.StripTrimmed | dockerfile_parser/parser.py:121 | stripping a string with no outer whitespace changes nothing |
| Strings.Words | dockerfile_parser/parser.py:119 | every token of `split()` is non-empty and free of whitespace |
| Strings.WordsSeparated | dockerfile_parser/parser.py:119 | the string is its tokens, in order, separated by whitespace runs that are non-empty between two tokens: the tokens are its maximal runs of non-whitespace |
| Strings.WordsEmptyIffBlank | dockerfile_parser/parser.py:119-121 | `split()` yields no token exactly when the command is blank, which is when `split[0]` raises |
| Strings.WordsOfJoinSpace | dockerfile_parser/parser.py:121 | `split()` of `' '.join(tokens)` gives back the tokens |
| Strings.JoinSpaceTrimmed | dockerfile_parser/parser.py:121 | `' '.join` of tokens has no outer whitespace, and is non-empty when there are tokens |
| Strings.JoinWordsLength | dockerfile_parser/parser.py:121 | `' '.join(split())` is no longer than the command, and joining the tokens after the first is strictly shorter |
| Strings.SplitOn | dockerfile_parser/parser.py:39 | `split(' ')` returns at least one part |
| Strings.SplitOnParts | dockerfile_parser/parser.py:39 | no part of `split(sep)` contains `sep` |
| Strings.JoinWithSplitOn | dockerfile_parser/parser.py:39 | joining the parts of `split(sep)` with `sep` gives back the string |
| Strings.SplitOnJoinWith | dockerfile_parser/parser.py:39 | `split(sep)` of parts joined by `sep`, none containing `sep`, gives back the parts |
| Strings.Upper | dockerfile_parser/parser.py:121 | `upper()` keeps the length, turns each ASCII lower-case letter into its capital and keeps every other character |
| Strings.ConcatAppend | dockerfile_parser/parser.py:59 | `''.join` of two lists is the concatenation of their joins |
| Document.PutValid | dockerfile_parser/parser.py:128-129 | `d[k] = v` keeps an OrderedDict well formed, stores `v`, keeps every other entry, and appends `k` to the key order only when it is new |
| Document.Block.WithBucket | dockerfile_parser/parser.py:118 | writing through `udata` replaces only the `(workdir, user)` bucket: every other bucket, the struct's fields and key order, and the key orders of the workdir and user levels are unchanged |
| Document.EmptyValid | dockerfile_parser/parser.py:84-85 | the empty OrderedDict every level starts from is well formed and is a bucket |
| Document.SetValid | dockerfile_parser/parser.py:128-165 | setting a field other than `workdir` keeps a dictionary, or a bucket, well formed |
| Document.OpenValid | dockerfile_parser/parser.py:103-112 | the lazy creation keeps a dictionary well formed at every level |
| Document.WithBucketValid | dockerfile_parser/parser.py:137-160 | writing a bucket back keeps the dictionary well formed |
| Document.Block.Open | dockerfile_parser/parser.py:103-112 | the lazy creation leaves the bucket of `(workdir, user)` present and the fields unchanged; it appends `workdir` to the key order only when that level is missing, only appends to the workdir and user key orders, and a bucket it creates is empty. It creates nothing else: every bucket after it is `(workdir, user)` or was there before; the workdir key order becomes exactly the old one, or the old one plus `workdir` when that level is new; every other workdir level is unchanged; and the same exactness holds for the user keys of `workdir` |
| Document.OpenKeepsBuckets | dockerfile_parser/parser.py:103-111 | the lazy creation never replaces an existing bucket: each keeps its value |
| Document.OpenExisting | dockerfile_parser/parser.py:103-111 | when the bucket exists the lazy creation changes nothing |
| Lines.KeptLines | dockerfile_parser/parser.py:55-56 | the filter keeps at most as many lines as it reads |
| Lines.KeptLinesMembers | dockerfile_parser/parser.py:55-56 | a line is kept exactly when it is in the input and is neither a `#` line nor blank |
| Lines.KeptLinesAppend | dockerfile_parser/parser.py:54-57 | the filter works line by line: filtering two consecutive pieces and concatenating gives the filter of the whole, so order and repetitions are kept |
| Lines.KeptLinesSingle | dockerfile_parser/parser.py:55-57 | a single line is kept exactly when it is neither a `#` line nor blank |
| Lines.ParseRawDockerfile | dockerfile_parser/parser.py:47-62 | the loop returns `Reconstruct(lines)`; the invariant relates its buffer and output to the logical lines still to come |
| Lines.ReconstructNotBlank | dockerfile_parser/parser.py:55-60 | no logical line is blank, so `split()` always finds a token in it |
| Lines.ReconstructCount | dockerfile_parser/parser.py:57-60 | there is one logical line per kept line that does not end in a backslash |
| Lines.GroupsCount | dockerfile_parser/parser.py:57-60 | whatever is buffered, the number of logical lines is the number of closing lines |
| Lines.SingleRun | dockerfile_parser/parser.py:57-60 | a run of continuing lines closed by one that does not continue is one logical line: the plain concatenation of the raw lines |
| Lines.SplitAtClosing | dockerfile_parser/parser.py:57-60 | the output splits after every closing line, and both sides are built independently |
| Lines.AllContinuing | dockerfile_parser/parser.py:53-62 | lines that all continue produce nothing, so an unterminated last run is lost |
| Lines.ReconstructKeepsText | dockerfile_parser/parser.py:53-62 | the text of the logical lines followed by the dropped run is the text of the kept lines |
| Lines.PendingDangling | dockerfile_parser/parser.py:53-62 | the buffer left at the end is the dangling run, behind whatever was already buffered |
| Lines.DanglingIsLastRun | dockerfile_parser/parser.py:53-62 | the dropped run is a suffix of the kept lines whose lines all continue, with a closing line before it |
| Commands.Keyword | dockerfile_parser/parser.py:121 | the keyword is the first token with each ASCII lower-case letter capitalised and every other character kept |
| Commands.Argument | dockerfile_parser/parser.py:121 | the argument is the remaining tokens joined by single spaces (the `strip()` removes nothing); it is shorter than the command and tokenises back into those tokens |
| Commands.ClassifyKnown | dockerfile_parser/parser.py:9-22 | a keyword is recognised exactly when it is in `_INSTRUCTIONS`, and as the instruction it spells |
| Commands.ClassifyName | dockerfile_parser/parser.py:9-22 | every instruction is recognised from its own spelling |
| Commands.Tokenize | dockerfile_parser/parser.py:119-123 | a command has no token exactly when blank; its keyword is unknown exactly when not in `_INSTRUCTIONS`; a recognised instruction spells the keyword, and its argument is the remaining tokens joined by single spaces |
| Commands.TokenizeWords | dockerfile_parser/parser.py:119-122 | a command whose first token upper-cases to an instruction's name is that instruction, with the other tokens single-spaced as its argument |
| Commands.TokenizeLowerCase | dockerfile_parser/parser.py:121-122 | keywords match in any case: `from x` is FROM with argument `x` |
| Commands.TotalLengthSnoc | dockerfile_parser/parser.py:174 | appending an ONBUILD argument adds its length to the total length of the ONBUILD lines |
| Commands.StrippedParts | dockerfile_parser/parser.py:39-40 | there is always a first part, so the `len(line)` test never fails |
| Commands.FirstIndex | dockerfile_parser/parser.py:38-41 | a found position is inside the list |
| Commands.FirstIndexFindsFirst | dockerfile_parser/parser.py:38-44 | the scan finds nothing exactly when no command matches, and otherwise finds a match with none before it |
| Commands.FirstIndexAt | dockerfile_parser/parser.py:38-42 | a match with none before it is the one the scan finds |
| Commands.FirstFromNameAt | dockerfile_parser/parser.py:38-42 | the name is taken from the first line whose first part is `FROM` |
| Commands.FirstFromNameNone | dockerfile_parser/parser.py:38-44 | without such a line there is no name |
| Commands.DistName | dockerfile_parser/parser.py:33-44 | the loop returns the last part of the first FROM line, or nothing; it computes `FirstFromName` |
| Parser.InitialImage | dockerfile_parser/parser.py:82 | the initial key is `False` exactly when no line whose first space-separated part, stripped, is `FROM` |
| Parser.Open | dockerfile_parser/parser.py:87-113 | the lazy creation provides the stage (with ids) and the bucket (outside onbuild mode), and leaves every loop variable as it was |
| Parser.Dispatch | dockerfile_parser/parser.py:125-174 | only ONBUILD touches the ONBUILD lines, by appending its argument |
| Parser.Settle | dockerfile_parser/parser.py:176-178 | the ONBUILD refresh and write-back change no loop variable |
| Parser.Recognised | dockerfile_parser/parser.py:125-178 | a recognised instruction leaves the ONBUILD lines appended to by ONBUILD only |
| Parser.Step | dockerfile_parser/parser.py:86-178 | an iteration stops exactly at an unknown keyword; it continues only after a recognised instruction, with the ONBUILD lines growing by less than the command |
| Parser.Apply | dockerfile_parser/parser.py:125-174 | the `if/elif` chain computes `Dispatch`, whose effects are stated by `DispatchWrites`, `DispatchStages` and `FieldTable.WriteTable` |
| Parser.WriteField | dockerfile_parser/parser.py:133-168 | the field-writing branches compute `Write`, which follows the instruction-to-field table (`FieldTable.WriteTable`) |
| FieldTable.WriteTable | dockerfile_parser/parser.py:133-168 | each instruction writes the field of its table row: MAINTAINER and ENTRYPOINT overwrite; RUN, CMD, ADD and COPY accumulate from `[]`; LABEL and ENV from an empty OrderedDict; EXPOSE and VOLUME from `[]`. RUN, CMD, ADD, COPY and ENTRYPOINT write the `(workdir, user)` bucket (the struct in onbuild mode), leaving the struct's fields, every other bucket and the level key orders unchanged; the others write the struct, leaving its buckets. Every other instruction writes nothing |
| Parser.OpenStruct | dockerfile_parser/parser.py:87-118 | the lazy creation computes `Open` and takes `struct` |
| Parser.Iterate | dockerfile_parser/parser.py:86-178 | one pass of the loop body computes `Step` on the command's token, re-parsing the ONBUILD lines recursively |
| Parser.Parse | dockerfile_parser/parser.py:76-180 | the loop computes `Run`: the returned document, or `None` when an iteration raises |
| Parser.ParseDockerfile | dockerfile_parser/parser.py:65-82 | parsing a file's lines is `Run` on the logical lines `_parse_raw_dockerfile` returns |
| ParserProperties.TokenlessRaises | dockerfile_parser/parser.py:119-121 | a blank command raises, and the whole call fails |
| ParserProperties.UnknownStops | dockerfile_parser/parser.py:122-123 | an unknown keyword ends the loop after the lazy creation; later commands are never read |
| ParserProperties.RecognisedVars | dockerfile_parser/parser.py:125-178 | a recognised instruction fails exactly when re-parsing its ONBUILD lines fails; otherwise the loop variables are those the chain set |
| ParserProperties.StepOnbuildLines | dockerfile_parser/parser.py:173-178 | a recognised iteration raises exactly when re-parsing the ONBUILD lines raises; otherwise ONBUILD appends its argument and nothing else touches the lines |
| ParserProperties.StepLinesGrow | dockerfile_parser/parser.py:173-174 | an iteration never removes ONBUILD lines |
| ParserProperties.ExecOnbuildLines | dockerfile_parser/parser.py:86-178 | over a run the ONBUILD lines are only appended to |
| ParserProperties.StepUserWorkdir | dockerfile_parser/parser.py:169-172 | USER and WORKDIR set only their variable, so the next iteration opens the new bucket; they raise only when the earlier ONBUILD lines do; they write no field: the new document is the lazy creation's, with at most the ONBUILD refresh |
| ParserProperties.StepStores | dockerfile_parser/parser.py:133-178 | every recognised instruction but FROM leaves the lazy creation's state with its loop variable updated and the struct, as written by `Write` and refreshed, stored back where it was taken from |
| ParserProperties.DispatchWrites | dockerfile_parser/parser.py:133-174 | every instruction but FROM leaves `struct` as `Write` makes it, still stored, and changes only the loop variable of USER, WORKDIR or ONBUILD |
| ParserProperties.SettleRefreshed | dockerfile_parser/parser.py:176-178 | the write-back stores the refreshed struct under its key when it is still stored there, and drops it otherwise |
| ParserProperties.StepFromInPlace | dockerfile_parser/parser.py:125-132 | FROM without ids, and the first FROM with ids, write `from` onto the struct taken at the top of the iteration (the root, or the initial stage), clear `first`, and store the refreshed struct back |
| ParserProperties.StepFromFlat | dockerfile_parser/parser.py:130-132 | without ids FROM stores its filtered argument as `from`, clears `first`, and keeps workdir and user |
| ParserProperties.StepFromStaged | dockerfile_parser/parser.py:126-129 | with ids a later FROM draws a new id and stores a fresh stage holding only `from`, keeping workdir and user; the previous stage is kept, with its ONBUILD refresh, unless the id collides |
| ParserProperties.StepOnbuildRefresh | dockerfile_parser/parser.py:176-178 | without ids, once there are ONBUILD lines, `onbuild` holds the flat parse of all of them |
| ParserProperties.StepOnbuildRefreshStaged | dockerfile_parser/parser.py:176-178 | with ids, every recognised instruction but FROM stores the flat parse of all ONBUILD lines so far in the current stage |
| ParserProperties.DispatchKeepsStage | dockerfile_parser/parser.py:133-174 | every instruction but FROM keeps the stage key and leaves `struct` stored |
| ParserProperties.SettleStores | dockerfile_parser/parser.py:176-178 | the write-back of a stored struct puts the flat parse of the ONBUILD lines under `onbuild` |
| ParserProperties.OpenContents | dockerfile_parser/parser.py:87-113 | with ids the lazy creation adds no stage but the current one, appended to the stage key order only when missing, keeps every other stage and only opens the bucket of the current one, created empty if missing; without ids it opens the bucket of the root, and in onbuild mode it changes nothing |
| ParserProperties.OpenOrder | dockerfile_parser/parser.py:87-113 | the key orders of the document and of the stages only grow under the lazy creation |
| ParserProperties.TreeGrowsTrans | dockerfile_parser/parser.py:86-180 | only adding below a struct, twice over, is only adding |
| ParserProperties.OpenGrows | dockerfile_parser/parser.py:91-111 | the lazy creation only adds below a struct: every key order, at the struct, workdir, user and bucket level, only grows, and no bucket disappears |
| ParserProperties.WriteGrows | dockerfile_parser/parser.py:133-168 | a field write only adds below a struct, at every level |
| ParserProperties.SetGrows | dockerfile_parser/parser.py:132 | setting one field, as FROM does, only adds below a struct |
| ParserProperties.RefreshedGrows | dockerfile_parser/parser.py:176-178 | the ONBUILD refresh only adds below a struct |
| ParserProperties.StepTreeGrows | dockerfile_parser/parser.py:86-178 | without ids an iteration only adds to the document at every level: all key orders grow and no bucket disappears |
| ParserProperties.ExecTreeGrows | dockerfile_parser/parser.py:86-180 | without ids a whole run only adds to the document at every level, so keys keep their first-creation order in every scope and no bucket is re-created |
| ParserProperties.StepRecognised | dockerfile_parser/parser.py:86-178 | a recognised instruction is carried out on the state the lazy creation left |
| ParserProperties.DispatchStages | dockerfile_parser/parser.py:125-132 | only a FROM after the first, with ids, changes the stages or the stage key, storing a fresh stage under the id it draws; `struct` stays stored unless that id is the current key |
| ParserProperties.RecognisedOtherStages | dockerfile_parser/parser.py:125-178 | with ids a recognised instruction keeps every stage but the current one, unless a FROM draws its id |
| ParserProperties.StepOtherStages | dockerfile_parser/parser.py:86-178 | with ids an iteration keeps every stage but the current one, unless a FROM draws its id |
| ParserProperties.RecognisedStageGrows | dockerfile_parser/parser.py:125-178 | with ids a recognised instruction only adds to the struct it took, at every level, when it stores it back |
| ParserProperties.StepStageGrows | dockerfile_parser/parser.py:86-178 | with ids an iteration only adds to the current stage at every level, unless a FROM draws its id |
| ParserProperties.WriteOrder | dockerfile_parser/parser.py:133-168 | a field write only appends keys to the struct and never creates the `workdir` level |
| ParserProperties.DispatchOrder | dockerfile_parser/parser.py:125-174 | the chain only appends keys to the struct and the stages; without ids it leaves `struct` stored |
| ParserProperties.SettleOrder | dockerfile_parser/parser.py:176-178 | the write-back only appends keys |
| ParserProperties.RecognisedOrder | dockerfile_parser/parser.py:125-178 | a recognised instruction only appends keys to the document or the stages |
| ParserProperties.StepOrder | dockerfile_parser/parser.py:86-178 | an iteration only appends keys to the document or the stages |
| ParserProperties.ExecOrder | dockerfile_parser/parser.py:86-180 | over a run the key order of the document, or of the stages, only grows |
| ParserProperties.StepOnbuildFlat | dockerfile_parser/parser.py:115-116 | in onbuild mode an iteration never creates the `workdir` level |
| ParserProperties.ExecOnbuildFlat | dockerfile_parser/parser.py:86-180 | in onbuild mode a whole run never creates the `workdir` level |
| ParserProperties.RunOnbuildFlat | dockerfile_parser/parser.py:177-178 | the document stored under `onbuild` is flat, with every field directly on it |
| ParserProperties.ExecWithoutOnbuild | dockerfile_parser/parser.py:86-178 | non-blank commands without ONBUILD never raise and gather no ONBUILD lines |
| ParserProperties.RunWithoutOnbuild | dockerfile_parser/parser.py:65-82 | a Dockerfile without ONBUILD instructions always parses |
| ParserProperties.BareOnbuildRaises | dockerfile_parser/parser.py:174-178 | an ONBUILD without argument, with no ONBUILD line before it, raises, because its empty line is re-parsed at once |
| ParserProperties.TokenizeAlone | dockerfile_parser/parser.py:119-121 | a command of one keyword token is that instruction with an empty argument |
| ParserProperties.BareOnbuildToken | dockerfile_parser/parser.py:119-122 | the line `ONBUILD` is the ONBUILD instruction with an empty argument |
| Wellformed.InitialValid | dockerfile_parser/parser.py:84-85 | the dictionaries before the first command are well formed |
| Wellformed.OpenCtxValid | dockerfile_parser/parser.py:87-113 | the lazy creation keeps the root, the stages and every stage well formed, and hands a well-formed struct to the `if/elif` chain |
| Wellformed.WithStructAtValid | dockerfile_parser/parser.py:176-178 | storing a well-formed struct back keeps every dictionary well formed |
| Wellformed.WriteSlot | dockerfile_parser/parser.py:133-165 | a field write sets the field of its table row, on the struct or on `udata`, and sets nothing for an instruction without a row |
| Wellformed.WriteValid | dockerfile_parser/parser.py:133-165 | a field write keeps the struct well formed |
| Wellformed.RefreshedValid | dockerfile_parser/parser.py:176-178 | the ONBUILD refresh keeps the struct well formed |
| Wellformed.RecognisedValid | dockerfile_parser/parser.py:125-178 | a recognised instruction, FROM included, keeps every dictionary well formed |
| Wellformed.StepValid | dockerfile_parser/parser.py:86-178 | an iteration that does not raise keeps every dictionary well formed |
| Wellformed.ExecValid | dockerfile_parser/parser.py:86-180 | the loop keeps every dictionary well formed |
| Wellformed.RunValid | dockerfile_parser/parser.py:76-180 | the document `parse` returns is well formed at every level: root or stages, workdir level, user levels and buckets |
| Wellformed.GrowsKeepsFields | dockerfile_parser/parser.py:86-180 | on well-formed dictionaries, a growing key order loses no field |
| Wellformed.GrowsKeepsBucketFields | dockerfile_parser/parser.py:86-180 | on well-formed dictionaries, growth keeps every bucket and loses none of its fields |

## Left out

- `_to_commands` reads the file and splits it into lines. The model takes
  the list of lines as the input of `ParseDockerfile`, so the file I/O and
  `splitlines` are not part of this model.
- `_hash_image_name` is an MD5 digest of the name plus a random number. It
  becomes the parameter `mint`, any function from the name and the draw
  number to 20 lower-case hex digits. Every property holds for every such
  function, so ids of different draws may collide. Two calls with the same
  draws get the same id, while the source draws afresh; the ids of a nested
  ONBUILD re-parse are never used, since it runs without container ids.
- The `filters` module is not part of this model. Its functions are the
  uninterpreted fields of `Filters`, and an exception raised inside them is
  not modelled.
- The `__main__` block, which prints the result as JSON, is left out.
- The key `False` used when no line whose first space-separated part, stripped, is `FROM` is the string
  `"False"` (`NoImage`). No container id equals it, since an id is made of
  hex digits.
- Whitespace is that of Python 2 byte strings (space, tab, newline, carriage
  return, vertical tab, form feed), and `upper()` maps ASCII letters only.
  Unicode whitespace and case mapping are left out.
- An IndexError is the only exception the model represents (`None`). The
  RuntimeError Python raises when nested ONBUILD re-parses exceed its
  recursion limit (about 1000 levels, as in `ONBUILD ONBUILD … RUN x`) is
  not modelled: `Run` returns a document at any depth. The
  partial changes that an iteration makes before it raises are dropped with
  the call's result, as in the source.
- Strings.Words: its own contract states only that the tokens are non-empty and free of whitespace; that they are the maximal runs of the string, in order, is stated by `WordsSeparated`.
- Strings.Strip: its own contract states the shape of the result; that it is the infix between the leading and trailing whitespace is stated by `StripInfix`.
- Parser.Open: its own contract states what the lazy creation provides and that the loop variables are kept; what it makes of the stages and the root is stated by `ParserProperties.OpenContents`, and that it only adds below a struct by `ParserProperties.OpenGrows`.
- ParserProperties.WriteOrder: it states the growth of the top-level key order only; growth at the workdir, user and bucket levels is stated by `WriteGrows`.
- ParserProperties.DispatchOrder: it states the growth of the top-level key order only; growth at the workdir, user and bucket levels is stated by `StepTreeGrows` and `StepStageGrows`.
- ParserProperties.SettleOrder: it states the growth of the top-level key order only; growth at the workdir, user and bucket levels is stated by `RefreshedGrows`.
- ParserProperties.RecognisedOrder: it states the growth of the top-level key order only; growth at the workdir, user and bucket levels is stated by `RecognisedStageGrows`.
- ParserProperties.StepOrder: it states the growth of the top-level key order only; growth at the workdir, user and bucket levels is stated by `StepTreeGrows` and `StepStageGrows`.
- ParserProperties.ExecOrder: it states the top-level key order only. Without container ids, growth at every level over a run is stated by `ExecTreeGrows`. With container ids, growth inside a stage is proved per iteration (`StepStageGrows`) and not over a run, because a later FROM may draw the id of an earlier stage and replace it.
- Lines.KeptLines: its own contract states only the length bound; which lines it keeps, in which order, is stated by `KeptLinesMembers`, `KeptLinesAppend` and `KeptLinesSingle`.

=== FILE: Commands.dfy ===
/**
  The instruction set and the tokenisation of one logical line in
  dockerfile_parser/parser.py, and the first-FROM scan `_get_dist_name`.
 */
module Commands {
  import opened Strings
  import opened Document

  /** `_INSTRUCTIONS`: the 14 keywords the parser recognises. */
  const Instructions: seq<string> := [
    "FROM", "MAINTAINER", "RUN", "CMD", "LABEL", "EXPOSE", "ENV",
    "ADD", "COPY", "ENTRYPOINT", "VOLUME", "USER", "WORKDIR", "ONBUILD"
  ]

  /** `split[0].upper()`: the first whitespace-separated token with its ASCII
      lower-case letters capitalised, so that keywords match in any case. */
  function Keyword(command: string): (kw: string)
    requires Words(command) != []
    ensures |kw| == |Words(command)[0]|
    ensures forall i | 0 <= i < |kw| :: var c := Words(command)[0][i];
      if 'a' <= c <= 'z' then kw[i] as int == c as int - 32 else kw[i] == c
  {
    Upper(Words(command)[0])
  }

  /** `' '.join(split[1:]).strip()`: the remaining tokens joined by single
      spaces (the `strip()` removes nothing). It is strictly shorter than the
      command and tokenises back into exactly those remaining tokens. */
  function Argument(command: string): (v: string)
    requires Words(command) != []
    ensures v == JoinSpace(Words(command)[1..])
    ensures |v| < |command|
    ensures Words(v) == Words(command)[1..]
  {
    var rest := Words(command)[1..];
    assert forall w | w in rest :: w in Words(command);
    JoinSpaceTrimmed(rest);
    StripTrimmed(JoinSpace(rest));
    JoinWordsLength(command);
    WordsOfJoinSpace(rest);
    Strip(JoinSpace(rest))
  }

  /** The entries of `_INSTRUCTIONS`, as values. */
  datatype Instruction =
    | FROM | MAINTAINER | RUN | CMD | LABEL | EXPOSE | ENV
    | ADD | COPY | ENTRYPOINT | VOLUME | USER | WORKDIR | ONBUILD

  /** The keyword spelling of an instruction. */
  function Name(i: Instruction): string {
    match i
    case FROM => "FROM"
    case MAINTAINER => "MAINTAINER"
    case RUN => "RUN"
    case CMD => "CMD"
    case LABEL => "LABEL"
    case EXPOSE => "EXPOSE"
    case ENV => "ENV"
    case ADD => "ADD"
    case COPY => "COPY"
    case ENTRYPOINT => "ENTRYPOINT"
    case VOLUME => "VOLUME"
    case USER => "USER"
    case WORKDIR => "WORKDIR"
    case ONBUILD => "ONBUILD"
  }

  /** `instr in _INSTRUCTIONS`, and if so which instruction `kw` spells. */
  function Classify(kw: string): Option<Instruction> {
    if kw == "FROM" then Some(FROM)
    else if kw == "MAINTAINER" then Some(MAINTAINER)
    else if kw == "RUN" then Some(RUN)
    else if kw == "CMD" then Some(CMD)
    else if kw == "LABEL" then Some(LABEL)
    else if kw == "EXPOSE" then Some(EXPOSE)
    else if kw == "ENV" then Some(ENV)
    else if kw == "ADD" then Some(ADD)
    else if kw == "COPY" then Some(COPY)
    else if kw == "ENTRYPOINT" then Some(ENTRYPOINT)
    else if kw == "VOLUME" then Some(VOLUME)
    else if kw == "USER" then Some(USER)
    else if kw == "WORKDIR" then Some(WORKDIR)
    else if kw == "ONBUILD" then Some(ONBUILD)
    else None
  }

  /** A keyword is recognised exactly when it is listed in `_INSTRUCTIONS`, and
      then as the instruction it spells. */
  lemma ClassifyKnown(kw: string)
    ensures Classify(kw).Some? <==> kw in Instructions
    ensures Classify(kw).Some? ==> Name(Classify(kw).value) == kw
  {
  }

  /** Every instruction is recognised from its own spelling. */
  lemma ClassifyName(i: Instruction)
    ensures Classify(Name(i)) == Some(i)
  {
  }

  /** What the loop body makes of one command: no token at all (`split[0]`
      raises IndexError), a keyword outside `_INSTRUCTIONS`, or a recognised
      instruction with its argument. */
  datatype Token = Blank | Unknown | Instr(instr: Instruction, arg: string)

  /** How much of a command a token carries on: the argument of a recognised
      instruction, plus one. */
  function Weight(t: Token): nat {
    if t.Instr? then |t.arg| + 1 else 0
  }

  /** `split = command.split()`, `split[0].upper()`, `' '.join(split[1:]).strip()`
      and the membership test in `_INSTRUCTIONS`. A command raises exactly when
      it is blank; a recognised keyword is spelled by its instruction, and its
      argument is the command's remaining tokens joined by single spaces, which
      is shorter than the command. */
  function Tokenize(command: string): (t: Token)
    ensures t.Blank? <==> IsBlank(command)
    ensures t.Unknown? <==> Words(command) != [] && Keyword(command) !in Instructions
    ensures t.Instr? ==> Words(command) != [] && Name(t.instr) == Keyword(command) && Words(t.arg) == Words(command)[1..]
    ensures t.Instr? ==> t.arg == JoinSpace(Words(command)[1..])
    ensures Weight(t) <= |command|
  {
    WordsEmptyIffBlank(command);
    if Words(command) == [] then Blank
    else
      ClassifyKnown(Keyword(command));
      match Classify(Keyword(command))
      case None => Unknown
      case Some(i) => Instr(i, Argument(command))
  }

  /** A command whose first token upper-cases to an instruction's spelling is
      that instruction, with the other tokens single-spaced as argument. */
  lemma TokenizeWords(command: string, w: string, rest: seq<string>, i: Instruction)
    requires Words(command) == [w] + rest
    requires Upper(w) == Name(i)
    ensures Tokenize(command) == Instr(i, JoinSpace(rest))
  {
    assert Words(command)[1..] == rest;
    ClassifyName(i);
  }

  /** Keywords match in any letter case: `from x` is a FROM with argument `x`. */
  lemma TokenizeLowerCase()
    ensures Tokenize("from x") == Instr(FROM, "x")
  {
    assert IsWord("x") && IsWord("from");
    WordOfPrefix("x", "");
    assert "x" + "" == "x";
    WordsConsSpace("from", "x");
    assert "from" + " " + "x" == "from x";
    assert Upper("from") == "FROM";
    TokenizeWords("from x", "from", ["x"], FROM);
  }

  /** Total number of characters in a list of commands. */
  function TotalLength(commands: seq<string>): nat {
    if commands == [] then 0 else |commands[0]| + TotalLength(commands[1..])
  }

  lemma {:induction false} TotalLengthSnoc(commands: seq<string>, c: string)
    ensures TotalLength(commands + [c]) == TotalLength(commands) + |c|
    decreases |commands|
  {
    if commands == [] {
      assert [] + [c] == [c];
    } else {
      assert (commands + [c])[1..] == commands[1..] + [c];
      TotalLengthSnoc(commands[1..], c);
    }
  }

  /** `[c.strip() for c in command.split(' ')]`. */
  function StrippedParts(command: string): (parts: seq<string>)
    ensures |parts| >= 1
  {
    var raw := SplitOn(command, ' ');
    seq(|raw|, i requires 0 <= i < |raw| => Strip(raw[i]))
  }

  /** The test of parser.py:41: the first space-separated part, stripped, is
      exactly `FROM` (case-sensitive, unlike the keyword match of `parse`). */
  predicate IsFromLine(command: string) {
    StrippedParts(command)[0] == "FROM"
  }

  /** `line[-1]`: the last space-separated part, stripped. */
  function FromName(command: string): string {
    var parts := StrippedParts(command);
    parts[|parts| - 1]
  }

  /** The position of the first command that satisfies `p`, if any. */
  function FirstIndex(commands: seq<string>, p: string -> bool): (r: Option<nat>)
    ensures r.Some? ==> r.value < |commands|
    decreases |commands|
  {
    if commands == [] then None
    else if p(commands[0]) then Some(0)
    else match FirstIndex(commands[1..], p)
      case Some(i) => Some(i + 1)
      case None => None
  }

  /** `FirstIndex` finds nothing exactly when no command satisfies `p`, and
      what it finds satisfies `p` with no earlier command doing so. */
  lemma {:induction false} FirstIndexFindsFirst(commands: seq<string>, p: string -> bool)
    ensures FirstIndex(commands, p).None? <==> forall i | 0 <= i < |commands| :: !p(commands[i])
    ensures FirstIndex(commands, p).Some? ==>
              var k := FirstIndex(commands, p).value;
              p(commands[k]) && forall j | 0 <= j < k :: !p(commands[j])
    decreases |commands|
  {
    if commands != [] && !p(commands[0]) {
      var rest := commands[1..];
      FirstIndexFindsFirst(rest, p);
      assert forall i | 1 <= i < |commands| :: commands[i] == rest[i - 1];
    }
  }

  /** The name `_get_dist_name` hashes: that of the first FROM line, if any. */
  function FirstFromName(commands: seq<string>): Option<string> {
    match FirstIndex(commands, IsFromLine)
    case Some(i) => Some(FromName(commands[i]))
    case None => None
  }

  /** A command satisfying `p` with none before it is the one `FirstIndex` finds. */
  lemma FirstIndexAt(commands: seq<string>, p: string -> bool, i: nat)
    requires i < |commands| && p(commands[i])
    requires forall j | 0 <= j < i :: !p(commands[j])
    ensures FirstIndex(commands, p) == Some(i)
  {
    FirstIndexFindsFirst(commands, p);
  }

  /** The first line whose first space-separated part, stripped, is `FROM` gives the name. */
  lemma FirstFromNameAt(commands: seq<string>, i: nat)
    requires i < |commands| && IsFromLine(commands[i])
    requires forall j | 0 <= j < i :: !IsFromLine(commands[j])
    ensures FirstFromName(commands) == Some(FromName(commands[i]))
  {
    FirstIndexAt(commands, IsFromLine, i);
  }

  /** Without a line whose first space-separated part, stripped, is `FROM` there is no name. */
  lemma FirstFromNameNone(commands: seq<string>)
    requires forall j | 0 <= j < |commands| :: !IsFromLine(commands[j])
    ensures FirstFromName(commands) == None
  {
    FirstIndexFindsFirst(commands, IsFromLine);
  }

  /** `_get_dist_name` (parser.py:33-44), without the hash: the loop returns
      the name of the first line whose first space-separated part is `FROM`,
      or nothing. */
  method DistName(commands: seq<string>) returns (name: Option<string>)
    ensures name == FirstFromName(commands)
  {
    for i := 0 to |commands|
      invariant forall j | 0 <= j < i :: !IsFromLine(commands[j])
    {
      if IsFromLine(commands[i]) {
        FirstFromNameAt(commands, i);
        return Some(FromName(commands[i]));
      }
    }
    FirstFromNameNone(commands);
    return None;
  }
}

=== FILE: Document.dfy ===
/**
  The output document of dockerfile_parser/parser.py: nested insertion-ordered
  dictionaries `data -> [image] -> 'workdir' -> workdir -> user -> bucket`,
  created lazily, one level at a time.
 */
module Document {

  datatype Option<T> = None | Some(value: T)

  /** Python's OrderedDict with string keys: `keys` lists the keys in
      first-insertion order, `vals` holds the values. */
  datatype ODict<V> = ODict(keys: seq<string>, vals: map<string, V>) {

    /** The two views agree and no key is listed twice. */
    ghost predicate Valid() {
      (forall i, j | 0 <= i < j < |keys| :: keys[i] != keys[j]) &&
      (forall k :: k in vals <==> k in keys)
    }

    /** `d[k] = v`: a new key goes to the end, an existing key keeps its place. */
    function Put(k: string, v: V): ODict<V> {
      ODict(if k in vals then keys else keys + [k], vals[k := v])
    }

    /** `if k not in d: d[k] = v`. */
    function Ensure(k: string, v: V): ODict<V> {
      if k in vals then this else Put(k, v)
    }
  }

  function EmptyODict<V>(): ODict<V> {
    ODict([], map[])
  }

  /** Storing into a valid dictionary keeps it valid, keeps every other entry,
      and only ever appends to the key order. */
  lemma PutValid<V>(d: ODict<V>, k: string, v: V)
    requires d.Valid()
    ensures d.Put(k, v).Valid()
    ensures d.Put(k, v).vals[k] == v
    ensures forall x | x in d.vals && x != k :: x in d.Put(k, v).vals && d.Put(k, v).vals[x] == d.vals[x]
    ensures d.keys <= d.Put(k, v).keys
    ensures k in d.vals <==> d.Put(k, v).keys == d.keys
  {
  }

  /** A field value: whatever a value filter returns, the empty list and empty
      OrderedDict the parser starts from, and the nested document of `onbuild`. */
  datatype Node =
    | Text(text: string)
    | List(items: seq<Node>)
    | Dict(entries: ODict<Node>)
    | Sub(doc: Doc)

  /** One OrderedDict the parser writes fields into: the root, a stage, or a
      (workdir, user) bucket. `keys` is its key order; a stage that has opened
      its `'workdir'` level holds that level in `workdirs` and lists
      `"workdir"` in `keys` at the place it was created. Buckets never have one. */
  datatype Block = Block(keys: seq<string>, fields: map<string, Node>, workdirs: Option<ODict<ODict<Block>>>)
  {
    /** `self.get(k, dflt)`, as the `if k not in d: d[k] = dflt` idiom reads it. */
    function Get(k: string, dflt: Node): Node {
      if k in fields then fields[k] else dflt
    }

    /** `self[k] = v` for a field key. */
    function Set(k: string, v: Node): Block {
      Block(if k in fields then keys else keys + [k], fields[k := v], workdirs)
    }

    /** The bucket for `(w, u)` exists. */
    predicate HasBucket(w: string, u: string) {
      workdirs.Some? && w in workdirs.value.vals && u in workdirs.value.vals[w].vals
    }

    function Bucket(w: string, u: string): Block
      requires HasBucket(w, u)
    {
      workdirs.value.vals[w].vals[u]
    }

    /** A bucket: an OrderedDict of fields, with no nested level. */
    ghost predicate IsBucket() {
      workdirs.None? && ODict(keys, fields).Valid()
    }

    /** Well formed, as OrderedDicts are by construction: `keys` lists each
      field once, and `"workdir"` exactly when the workdir level exists (no
      field is named `"workdir"`); that level and each user level below it
      are valid OrderedDicts, and every bucket is one. */
    ghost predicate Valid() {
      "workdir" !in fields &&
      (forall i, j | 0 <= i < j < |keys| :: keys[i] != keys[j]) &&
      (forall k :: k in keys <==> (k in fields || (k == "workdir" && workdirs.Some?))) &&
      (workdirs.Some? ==> LevelValid(workdirs.value))
    }

    /** Replaces the existing bucket for `(w, u)`: every other bucket is kept,
      and the key orders of the block, of its workdir level and of each user
      level are unchanged. */
    function WithBucket(w: string, u: string, b: Block): (r: Block)
      requires HasBucket(w, u)
      ensures r.HasBucket(w, u) && r.Bucket(w, u) == b
      ensures r.keys == keys && r.fields == fields
      ensures forall x, y | HasBucket(x, y) && (x != w || y != u) :: r.HasBucket(x, y) && r.Bucket(x, y) == Bucket(x, y)
      ensures r.workdirs.Some? && r.workdirs.value.keys == workdirs.value.keys
      ensures forall x | x in workdirs.value.vals ::
        x in r.workdirs.value.vals && r.workdirs.value.vals[x].keys == workdirs.value.vals[x].keys
    {
      var tree := workdirs.value;
      Block(keys, fields, Some(tree.Put(w, tree.vals[w].Put(u, b))))
    }

    /** The lazy creation of the `'workdir'`, workdir and user levels: each
      missing level is created empty and appended to its parent's key order,
      so every key order only grows, and a missing bucket starts empty. */
    function Open(w: string, u: string): (r: Block)
      ensures r.HasBucket(w, u)
      ensures r.fields == fields
      ensures r.keys == if workdirs.Some? then keys else keys + ["workdir"]
      ensures !HasBucket(w, u) ==> r.Bucket(w, u) == EmptyBlock()
      ensures workdirs.Some? ==> workdirs.value.keys <= r.workdirs.value.keys
      ensures workdirs.Some? && w in workdirs.value.vals ==>
        workdirs.value.vals[w].keys <= r.workdirs.value.vals[w].keys
      ensures forall x, y | r.HasBucket(x, y) :: (x == w && y == u) || HasBucket(x, y)
      ensures var t := if workdirs.Some? then workdirs.value else EmptyODict();
        r.workdirs.value.keys == (if w in t.vals then t.keys else t.keys + [w]) &&
        r.workdirs.value.vals.Keys == t.vals.Keys + {w} &&
        forall x | x in t.vals && x != w :: r.workdirs.value.vals[x] == t.vals[x]
      ensures var t := if workdirs.Some? then workdirs.value else EmptyODict();
        var l := if w in t.vals then t.vals[w] else EmptyODict();
        r.workdirs.value.vals[w].keys == (if u in l.vals then l.keys else l.keys + [u]) &&
        r.workdirs.value.vals[w].vals.Keys == l.vals.Keys + {u}
    {
      var tree := if workdirs.Some? then workdirs.value else EmptyODict();
      var order := if workdirs.Some? then keys else keys + ["workdir"];
      var tree1 := tree.Ensure(w, EmptyODict());
      var tree2 := tree1.Put(w, tree1.vals[w].Ensure(u, EmptyBlock()));
      Block(order, fields, Some(tree2))
    }
  }

  /** A user level: a valid OrderedDict whose values are buckets. */
  ghost predicate UsersValid(l: ODict<Block>) {
    l.Valid() && forall u | u in l.vals :: l.vals[u].IsBucket()
  }

  /** The workdir level of a block: a valid OrderedDict of valid user levels. */
  ghost predicate LevelValid(t: ODict<ODict<Block>>) {
    t.Valid() && forall w | w in t.vals :: UsersValid(t.vals[w])
  }

  function EmptyBlock(): Block {
    Block([], map[], None)
  }

  /** What `parse` returns: the root block when stages are not keyed by a
      container id, otherwise the OrderedDict of stages. */
  datatype Doc = Flat(root: Block) | Staged(stages: ODict<Block>)

  /** Opening a bucket never replaces a bucket that already exists: every
      existing bucket is still there with the same value. */
  lemma OpenKeepsBuckets(b: Block, w: string, u: string, w': string, u': string)
    requires b.HasBucket(w', u')
    ensures b.Open(w, u).HasBucket(w', u')
    ensures b.Open(w, u).Bucket(w', u') == b.Bucket(w', u')
  {
  }

  /** Opening a bucket that already exists changes nothing at all. */
  lemma OpenExisting(b: Block, w: string, u: string)
    requires b.HasBucket(w, u)
    ensures b.Open(w, u) == b
  {
    var tree := b.workdirs.value;
    assert tree.Ensure(w, EmptyODict()) == tree;
    assert tree.vals[w].Ensure(u, EmptyBlock()) == tree.vals[w];
    assert tree.vals[w := tree.vals[w]] == tree.vals;
  }

  /** The empty dictionary the parser starts every level from is well formed. */
  lemma EmptyValid()
    ensures EmptyBlock().Valid() && EmptyBlock().IsBucket()
  {
  }

  /** Setting a field other than `"workdir"` keeps a block, or a bucket, well formed. */
  lemma SetValid(b: Block, k: string, v: Node)
    requires k != "workdir"
    ensures b.Valid() ==> b.Set(k, v).Valid()
    ensures b.IsBucket() ==> b.Set(k, v).IsBucket()
  {
  }

  /** The lazy creation keeps a block well formed. */
  lemma OpenValid(b: Block, w: string, u: string)
    requires b.Valid()
    ensures b.Open(w, u).Valid()
  {
    var tree: ODict<ODict<Block>> := if b.workdirs.Some? then b.workdirs.value else EmptyODict();
    var order := if b.workdirs.Some? then b.keys else b.keys + ["workdir"];
    var tree1 := tree.Ensure(w, EmptyODict());
    LevelEnsureValid(tree, w);
    var users := tree1.vals[w].Ensure(u, EmptyBlock());
    UsersEnsureValid(tree1.vals[w], u);
    PutValid(tree1, w, users);
    var tree2 := tree1.Put(w, users);
    assert LevelValid(tree2);
    assert b.Open(w, u) == Block(order, b.fields, Some(tree2));
    TopValid(b, tree2);
  }

  lemma LevelEnsureValid(t: ODict<ODict<Block>>, w: string)
    requires LevelValid(t)
    ensures LevelValid(t.Ensure(w, EmptyODict()))
  {
    if w !in t.vals {
      PutValid(t, w, EmptyODict());
    }
  }

  lemma UsersEnsureValid(l: ODict<Block>, u: string)
    requires UsersValid(l)
    ensures UsersValid(l.Ensure(u, EmptyBlock()))
  {
    if u !in l.vals {
      PutValid(l, u, EmptyBlock());
      EmptyValid();
    }
  }

  /** A well-formed block given a well-formed workdir level, listed under
      `"workdir"` where the block already had one, or at the end. */
  lemma TopValid(b: Block, t: ODict<ODict<Block>>)
    requires b.Valid() && LevelValid(t)
    ensures Block(if b.workdirs.Some? then b.keys else b.keys + ["workdir"], b.fields, Some(t)).Valid()
  {
  }

  /** Replacing a bucket by a bucket keeps a block well formed. */
  lemma WithBucketValid(b: Block, w: string, u: string, x: Block)
    requires b.Valid() && b.HasBucket(w, u) && x.IsBucket()
    ensures b.WithBucket(w, u, x).Valid()
  {
  }
}

=== FILE: FieldTable.dfy ===
/**
  The instruction-to-field table of `parse` in dockerfile_parser/parser.py
  (lines 133-165), written out as data, and what `Write` does to the struct
  and to the `(workdir, user)` bucket for each row of it.
 */
module FieldTable {
  import opened Document
  import opened Commands
  import opened Parser

  /** Where an instruction's value goes: the field `key`; whether it goes into
      `udata` (the bucket of the current `(workdir, user)`, or the struct
      itself in onbuild mode) rather than into the struct; and the value the
      field starts from when the filter accumulates onto it (`None`: the
      filtered argument overwrites the field). */
  datatype Slot = Slot(key: string, inBucket: bool, start: Option<Node>)

  /** The table: MAINTAINER and ENTRYPOINT overwrite, RUN, CMD, ADD and COPY
      accumulate in the bucket from `[]`, LABEL and ENV accumulate in the
      struct from an empty OrderedDict, EXPOSE and VOLUME from `[]`. FROM,
      USER, WORKDIR and ONBUILD write no field. */
  function SlotOf(instr: Instruction): Option<Slot> {
    match instr
    case MAINTAINER => Some(Slot("maintainer", false, None))
    case RUN => Some(Slot("run", true, Some(List([]))))
    case CMD => Some(Slot("cmd", true, Some(List([]))))
    case LABEL => Some(Slot("label", false, Some(Dict(EmptyODict()))))
    case EXPOSE => Some(Slot("expose", false, Some(List([]))))
    case ENV => Some(Slot("env", false, Some(Dict(EmptyODict()))))
    case ADD => Some(Slot("add", true, Some(List([]))))
    case COPY => Some(Slot("copy", true, Some(List([]))))
    case ENTRYPOINT => Some(Slot("entrypoint", true, None))
    case VOLUME => Some(Slot("volume", false, Some(List([]))))
    case _ => None
  }

  /** The filter of each instruction that writes a field, applied to the
      field's previous value `prior` (which the overwriting ones ignore). */
  function Filtered(f: Filters, instr: Instruction, prior: Node, v: string): Node {
    match instr
    case MAINTAINER => f.maintainerFilter(v)
    case RUN => f.runFilter(prior, v)
    case CMD => f.cmdFilter(prior, v)
    case LABEL => f.labelFilter(prior, v)
    case EXPOSE => f.exposeFilter(prior, v)
    case ENV => f.envFilter(prior, v)
    case ADD => f.addFilter(prior, v)
    case COPY => f.copyFilter(prior, v)
    case ENTRYPOINT => f.entrypointFilter(v)
    case VOLUME => f.volumeFilter(prior, v)
    case _ => prior
  }

  /** The value an instruction writes into block `d` for its slot: the filter
      applied to the field's value in `d`, or to the slot's start value when
      `d` has no such field yet. */
  function NewValue(f: Filters, instr: Instruction, slot: Slot, d: Block, v: string): Node {
    Filtered(f, instr, if slot.start.Some? then d.Get(slot.key, slot.start.value) else List([]), v)
  }

  /** `r` is `d` with `d[k] = val`: the field takes the value, a new key goes
      to the end of the key order, and nothing else changes. */
  predicate Stored(r: Block, d: Block, k: string, val: Node) {
    r.fields == d.fields[k := val] && r.workdirs == d.workdirs &&
    r.keys == (if k in d.fields then d.keys else d.keys + [k])
  }

  /** `Write` follows the table. An instruction without a row leaves the
      struct as it is. A struct-level row, or any row in onbuild mode, stores
      the new value on the struct. A bucket-level row outside onbuild mode
      stores it in the bucket of the current `(workdir, user)` and leaves the
      struct's own fields and key order, every other bucket, and the key
      orders of the workdir and user levels as they were. */
  lemma WriteTable(m: Mode, f: Filters, c: Ctx, s: Block, instr: Instruction, v: string)
    requires !m.onbuild ==> s.HasBucket(c.workdir, c.user)
    ensures SlotOf(instr).None? ==> Write(m, f, c, s, instr, v) == s
    ensures var r := Write(m, f, c, s, instr, v);
      SlotOf(instr).Some? && (m.onbuild || !SlotOf(instr).value.inBucket) ==>
        var slot := SlotOf(instr).value;
        Stored(r, s, slot.key, NewValue(f, instr, slot, s, v))
    ensures var r := Write(m, f, c, s, instr, v);
      SlotOf(instr).Some? && !m.onbuild && SlotOf(instr).value.inBucket ==>
        var slot := SlotOf(instr).value;
        var (w, u) := (c.workdir, c.user);
        r.fields == s.fields && r.keys == s.keys &&
        r.HasBucket(w, u) &&
        Stored(r.Bucket(w, u), s.Bucket(w, u), slot.key, NewValue(f, instr, slot, s.Bucket(w, u), v)) &&
        (forall x, y | s.HasBucket(x, y) && (x != w || y != u) :: r.HasBucket(x, y) && r.Bucket(x, y) == s.Bucket(x, y)) &&
        r.workdirs.value.keys == s.workdirs.value.keys &&
        (forall x | x in s.workdirs.value.vals ::
          x in r.workdirs.value.vals && r.workdirs.value.vals[x].keys == s.workdirs.value.vals[x].keys)
  {
  }
}

=== FILE: Lines.dfy ===
/**
  The line reconstructor of dockerfile_parser/parser.py (`_parse_raw_dockerfile`):
  raw file lines in, logical instruction lines out.
 */
module Lines {
  import opened Strings

  /** `line.startswith('#')`, tested on the raw line: an indented `#` is not a comment. */
  predicate IsComment(line: string) {
    |line| > 0 && line[0] == '#'
  }

  /** The lines the loop skips with `continue`. */
  predicate Skipped(line: string) {
    IsComment(line) || IsBlank(line)
  }

  /** `line.rstrip()[-1] == '\\'`: the line's last non-whitespace character is a
      backslash, so whitespace after the backslash does not end the run. */
  predicate Continues(line: string) {
    var r := RStrip(line);
    r != [] && r[|r| - 1] == '\\'
  }

  /** The lines that are not skipped, in their original order. */
  function KeptLines(lines: seq<string>): (r: seq<string>)
    ensures |r| <= |lines|
  {
    if lines == [] then []
    else
      var rest := KeptLines(lines[1..]);
      if Skipped(lines[0]) then rest else [lines[0]] + rest
  }

  /** A line is kept exactly when it occurs in the input and is neither a
      comment nor blank. */
  lemma {:induction false} KeptLinesMembers(lines: seq<string>)
    ensures forall l :: l in KeptLines(lines) <==> l in lines && !Skipped(l)
    decreases |lines|
  {
    if lines != [] {
      KeptLinesMembers(lines[1..]);
      assert forall l :: l in lines <==> l == lines[0] || l in lines[1..];
    }
  }

  /** The filter works line by line: filtering two consecutive pieces of the
      file and concatenating the results gives the filter of the whole, so
      the kept lines keep their order and their repetitions. */
  lemma {:induction false} KeptLinesAppend(a: seq<string>, b: seq<string>)
    ensures KeptLines(a + b) == KeptLines(a) + KeptLines(b)
    decreases |a|
  {
    if a == [] {
      assert a + b == b;
    } else {
      assert (a + b)[0] == a[0] && (a + b)[1..] == a[1..] + b;
      KeptLinesAppend(a[1..], b);
    }
  }

  /** A single line is kept exactly when it is neither a comment nor blank. */
  lemma KeptLinesSingle(l: string)
    ensures KeptLines([l]) == if Skipped(l) then [] else [l]
  {
    assert [l][1..] == [];
  }

  /** One step of the filter from position `i`. */
  lemma KeptLinesAt(lines: seq<string>, i: nat)
    requires i < |lines|
    ensures KeptLines(lines[i..]) ==
      if Skipped(lines[i]) then KeptLines(lines[i + 1..]) else [lines[i]] + KeptLines(lines[i + 1..])
  {
    assert lines[i..][0] == lines[i] && lines[i..][1..] == lines[i + 1..];
  }

  /** The logical lines built from the kept lines `k`, when the lines in
      `pending` are already waiting in the buffer. */
  function Groups(k: seq<string>, pending: seq<string>): seq<string> {
    if k == [] then []
    else if Continues(k[0]) then Groups(k[1..], pending + [k[0]])
    else [Concat(pending + [k[0]])] + Groups(k[1..], [])
  }

  /** What `_parse_raw_dockerfile` returns. */
  function Reconstruct(lines: seq<string>): seq<string> {
    Groups(KeptLines(lines), [])
  }

  /** The number of lines in `k` that end a run. */
  function Closing(k: seq<string>): nat {
    if k == [] then 0 else (if Continues(k[0]) then 0 else 1) + Closing(k[1..])
  }

  /** Every line of `k` continues. */
  predicate AllContinue(k: seq<string>) {
    k == [] || (Continues(k[0]) && AllContinue(k[1..]))
  }

  /** The longest run at the end of `k` that never reaches a closing line:
      the whole of `k` if every line continues, otherwise the dangling run of
      its tail. */
  function Dangling(k: seq<string>): seq<string> {
    if k == [] || AllContinue(k) then k else Dangling(k[1..])
  }

  /** One kept line read with `pending` in the buffer. */
  lemma GroupsCons(line: string, rest: seq<string>, pending: seq<string>)
    ensures Groups([line] + rest, pending) ==
      if Continues(line) then Groups(rest, pending + [line])
      else [Concat(pending + [line])] + Groups(rest, [])
  {
    assert ([line] + rest)[0] == line && ([line] + rest)[1..] == rest;
  }

  /** The loop of parser.py:53-62. */
  method ParseRawDockerfile(lines: seq<string>) returns (result: seq<string>)
    ensures result == Reconstruct(lines)
  {
    result := [];
    var currentLine: seq<string> := [];
    for i := 0 to |lines|
      invariant result + Groups(KeptLines(lines[i..]), currentLine) == Reconstruct(lines)
    {
      var line := lines[i];
      KeptLinesAt(lines, i);
      if !(IsComment(line) || IsBlank(line)) {
        GroupsCons(line, KeptLines(lines[i + 1..]), currentLine);
        currentLine := currentLine + [line];
        var trimmed := RStrip(line);
        if trimmed[|trimmed| - 1] != '\\' {
          result := result + [Concat(currentLine)];
          currentLine := [];
        }
      }
    }
    assert lines[|lines|..] == [];
  }

  /** Every logical line that comes out holds a non-whitespace character, so
      `split()` finds at least one token in it. */
  lemma ReconstructNotBlank(lines: seq<string>)
    ensures forall l | l in Reconstruct(lines) :: !IsBlank(l)
  {
    KeptLinesMembers(lines);
    GroupsNotBlank(KeptLines(lines), []);
  }

  lemma {:induction false} GroupsNotBlank(k: seq<string>, pending: seq<string>)
    requires forall l | l in k :: !Skipped(l)
    ensures forall l | l in Groups(k, pending) :: !IsBlank(l)
    decreases |k|
  {
    if k != [] {
      assert k[0] in k;
      assert forall l | l in k[1..] :: l in k;
      if Continues(k[0]) {
        GroupsNotBlank(k[1..], pending + [k[0]]);
      } else {
        GroupsNotBlank(k[1..], []);
        ConcatAppend(pending, [k[0]]);
        assert Concat([k[0]]) == k[0];
        NotBlankSuffix(Concat(pending), k[0]);
      }
    }
  }

  lemma NotBlankSuffix(a: string, b: string)
    requires !IsBlank(b)
    ensures !IsBlank(a + b)
  {
    var i :| 0 <= i < |b| && !IsSpace(b[i]);
    assert (a + b)[|a| + i] == b[i];
  }

  /** One logical line per kept line that does not end in a backslash. */
  lemma ReconstructCount(lines: seq<string>)
    ensures |Reconstruct(lines)| == Closing(KeptLines(lines))
  {
    GroupsCount(KeptLines(lines), []);
  }

  lemma {:induction false} GroupsCount(k: seq<string>, pending: seq<string>)
    ensures |Groups(k, pending)| == Closing(k)
    decreases |k|
  {
    if k != [] {
      GroupsCount(k[1..], if Continues(k[0]) then pending + [k[0]] else []);
    }
  }

  /** A run of continuing lines closed by one that does not continue becomes
      exactly one logical line: the plain concatenation of the raw lines, with
      their backslashes and whitespace kept and no separator added. */
  lemma {:induction false} SingleRun(k: seq<string>, pending: seq<string>)
    requires k != []
    requires forall i | 0 <= i < |k| - 1 :: Continues(k[i])
    requires !Continues(k[|k| - 1])
    ensures Groups(k, pending) == [Concat(pending + k)]
    decreases |k|
  {
    if |k| == 1 {
      assert k == [k[0]];
      assert Groups(k[1..], []) == [];
    } else {
      SingleRun(k[1..], pending + [k[0]]);
      assert pending + [k[0]] + k[1..] == pending + k;
    }
  }

  /** The output splits after every closing line: what precedes it and what
      follows it are reconstructed independently. */
  lemma {:induction false} SplitAtClosing(k: seq<string>, pending: seq<string>, j: nat)
    requires j < |k| && !Continues(k[j])
    ensures Groups(k, pending) == Groups(k[..j + 1], pending) + Groups(k[j + 1..], [])
    decreases j
  {
    if j == 0 {
      assert k[..1][1..] == [];
      assert k[1..] == k[j + 1..];
    } else {
      var next := if Continues(k[0]) then pending + [k[0]] else [];
      SplitAtClosing(k[1..], next, j - 1);
      assert k[1..][..j] == k[..j + 1][1..];
      assert k[1..][j..] == k[j + 1..];
    }
  }

  /** Lines that all continue produce nothing: a file that ends in the middle of
      a continuation loses that last run. */
  lemma {:induction false} AllContinuing(k: seq<string>, pending: seq<string>)
    requires forall i | 0 <= i < |k| :: Continues(k[i])
    ensures Groups(k, pending) == []
    decreases |k|
  {
    if k != [] {
      AllContinuing(k[1..], pending + [k[0]]);
    }
  }

  /** The text of all logical lines, followed by the dropped trailing run, is the
      text of all kept lines: the output is a prefix of the kept text and only
      an unterminated last run is lost. */
  lemma ReconstructKeepsText(lines: seq<string>)
    ensures Concat(Reconstruct(lines)) + Concat(Dangling(KeptLines(lines))) == Concat(KeptLines(lines))
  {
    var k := KeptLines(lines);
    GroupsText(k, []);
    PendingDangling(k, []);
    if AllContinue(k) {
      DanglingAll(k);
      assert [] + k == k;
    }
    assert Concat([]) + Concat(k) == Concat(k);
  }

  /** The buffer left over after reading `k` with `pending` already buffered. */
  function Pending(k: seq<string>, pending: seq<string>): seq<string> {
    if k == [] then pending
    else if Continues(k[0]) then Pending(k[1..], pending + [k[0]])
    else Pending(k[1..], [])
  }

  lemma {:induction false} GroupsText(k: seq<string>, pending: seq<string>)
    ensures Concat(Groups(k, pending)) + Concat(Pending(k, pending)) == Concat(pending) + Concat(k)
    decreases |k|, 1
  {
    if k != [] {
      if Continues(k[0]) {
        GroupsText(k[1..], pending + [k[0]]);
        ConcatAppend(pending, [k[0]]);
        ConcatCons(k[0], []);
        ConcatCons(k[0], k[1..]);
        assert [k[0]] + k[1..] == k;
      } else {
        GroupsTextClosing(k, pending);
      }
    }
  }

  /** The step of `GroupsText` where the first line closes a run. */
  lemma {:induction false} GroupsTextClosing(k: seq<string>, pending: seq<string>)
    requires k != [] && !Continues(k[0])
    ensures Concat(Groups(k, pending)) + Concat(Pending(k, pending)) == Concat(pending) + Concat(k)
    decreases |k|, 0
  {
    var a, b, r := Concat(pending), k[0], Concat(k[1..]);
    var g, p := Concat(Groups(k[1..], [])), Concat(Pending(k[1..], []));
    GroupsText(k[1..], []);
    ClosingText(k, pending);
    Regroup(a, b, g, p, r);
  }

  /** The text of the logical lines when the first line closes the run. */
  lemma ClosingText(k: seq<string>, pending: seq<string>)
    requires k != [] && !Continues(k[0])
    ensures Concat(Groups(k, pending)) == (Concat(pending) + k[0]) + Concat(Groups(k[1..], []))
    ensures Pending(k, pending) == Pending(k[1..], [])
    ensures Concat(k) == k[0] + Concat(k[1..])
  {
    ConcatAppend(pending, [k[0]]);
    ConcatCons(k[0], []);
    ConcatCons(Concat(pending + [k[0]]), Groups(k[1..], []));
  }

  lemma Regroup(a: string, b: string, g: string, p: string, r: string)
    requires g + p == r
    ensures ((a + b) + g) + p == a + (b + r)
  {
  }

  /** A run whose lines all continue is its own dangling run. */
  lemma DanglingAll(k: seq<string>)
    requires AllContinue(k)
    ensures Dangling(k) == k
  {
  }

  /** The buffer left after the loop is the dangling run of the kept lines,
      behind the lines that were already buffered when it runs to the start. */
  lemma {:induction false} PendingDangling(k: seq<string>, pending: seq<string>)
    ensures Pending(k, pending) == if AllContinue(k) then pending + k else Dangling(k)
    decreases |k|
  {
    if k != [] {
      var rest := k[1..];
      if Continues(k[0]) {
        PendingDangling(rest, pending + [k[0]]);
        assert pending + [k[0]] + rest == pending + k;
      } else {
        PendingDangling(rest, []);
        if AllContinue(rest) {
          DanglingAll(rest);
          assert [] + rest == rest;
        }
      }
    }
  }

  /** A suffix of the tail is a suffix of the whole. */
  lemma TailSuffix(k: seq<string>, j: nat)
    requires 0 < |k| && j <= |k| - 1
    ensures k[1..][j..] == k[j + 1..]
  {
  }

  /** The dangling run is a suffix of `k`. */
  lemma {:induction false} DanglingSuffix(k: seq<string>)
    ensures |Dangling(k)| <= |k| && Dangling(k) == k[|k| - |Dangling(k)|..]
    decreases |k|
  {
    if k != [] && !AllContinue(k) {
      var rest := k[1..];
      DanglingSuffix(rest);
      TailSuffix(k, |rest| - |Dangling(rest)|);
    }
  }

  /** Every line of the dangling run continues. */
  lemma {:induction false} DanglingContinues(k: seq<string>)
    ensures AllContinue(Dangling(k))
    decreases |k|
  {
    if k != [] && !AllContinue(k) {
      DanglingContinues(k[1..]);
    }
  }

  /** The line just before the dangling run, if any, closes a run. */
  lemma {:induction false} DanglingBoundary(k: seq<string>)
    ensures |Dangling(k)| < |k| ==> !Continues(k[|k| - |Dangling(k)| - 1])
    decreases |k|
  {
    if k != [] && !AllContinue(k) {
      var rest := k[1..];
      var d := Dangling(rest);
      DanglingSuffix(rest);
      if |d| == |rest| {
        assert d == rest;
        DanglingContinues(rest);
      } else {
        DanglingBoundary(rest);
        assert k[|k| - |d| - 1] == rest[|rest| - |d| - 1];
      }
    }
  }

  /** The dangling run is a suffix of `k` whose lines all continue, and the line
      before it, if any, closes a run: it is exactly the last unterminated run. */
  lemma DanglingIsLastRun(k: seq<string>)
    ensures var d := Dangling(k);
      |d| <= |k| && d == k[|k| - |d|..] && AllContinue(d) &&
      (|d| < |k| ==> !Continues(k[|k| - |d| - 1]))
  {
    DanglingSuffix(k);
    DanglingContinues(k);
    DanglingBoundary(k);
  }
}

=== FILE: Parser.dfy ===
/**
  The state machine of `parse` in dockerfile_parser/parser.py (lines 76-180).

  The specification functions `Open`, `Dispatch`, `Step`, `Exec` and `Run`
  describe what one loop iteration, the loop, and a whole call produce;
  the method `Parse` is the loop itself, over local variables that mirror the
  source's, and is proved to compute `Run`.
 */
module Parser {
  import opened Strings
  import opened Document
  import opened Commands
  import opened Lines

  /** The two flags of `parse`: `onbuid` (re-parsing ONBUILD lines: no
      workdir nesting, every field on the struct) and `with_container_id`
      (stages keyed by a container id instead of one root document). */
  datatype Mode = Mode(onbuild: bool, withIds: bool)

  /** The `filters.*` functions, left uninterpreted. The accumulating ones take
      the previous value of the field and the instruction's argument. */
  datatype Filters = Filters(
    fromFilter: string -> Node,
    maintainerFilter: string -> Node,
    entrypointFilter: string -> Node,
    runFilter: (Node, string) -> Node,
    cmdFilter: (Node, string) -> Node,
    addFilter: (Node, string) -> Node,
    copyFilter: (Node, string) -> Node,
    labelFilter: (Node, string) -> Node,
    envFilter: (Node, string) -> Node,
    exposeFilter: (Node, string) -> Node,
    volumeFilter: (Node, string) -> Node)

  predicate IsHexDigit(c: char) {
    '0' <= c <= '9' || 'a' <= c <= 'f'
  }

  /** What `_hash_image_name` returns: the last 20 hex digits of an MD5 digest. */
  type HexId = s: string | |s| == 20 && forall i | 0 <= i < |s| :: IsHexDigit(s[i])
    witness "00000000000000000000"

  /** `_hash_image_name`: the container id drawn for a name at the n-th draw of
      one call of `parse`. The digest and the random suffix are not modelled;
      any function may stand for them, so ids of different draws may collide. */
  type Mint = (string, nat) -> HexId

  /** The stage key used when no line whose first space-separated part, stripped, is `FROM` (`_get_dist_name`
      returns `False`). It is never a container id. */
  const NoImage: string := "False"

  /** The loop's variables: `data` (as `root` when stages are not keyed by
      id, as `stages` when they are), `workdir`, `user`, `first`, `image`,
      `onbuild_lines`, and the number of ids drawn so far. */
  datatype Ctx = Ctx(
    root: Block,
    stages: ODict<Block>,
    workdir: string,
    user: string,
    first: bool,
    image: string,
    onbuildLines: seq<string>,
    draws: nat)

  /** Whether the loop goes on after a command, stops at it, or raises. */
  datatype Outcome = Next(ctx: Ctx) | Halt(ctx: Ctx) | Fail

  /** What dispatching one known instruction produces: the new variables, the
      new struct, and whether `struct` is still the dictionary stored under the
      key it was taken from. */
  datatype Effect = Effect(ctx: Ctx, struct: Block, attached: bool)

  /** `image = _get_dist_name(commands)`: an id for the first FROM line's name
      (the first draw), or `False`. */
  function InitialImage(mint: Mint, commands: seq<string>): (image: string)
    ensures FirstFromName(commands).None? <==> image == NoImage
  {
    match FirstFromName(commands)
    case Some(name) => mint(name, 0)
    case None => NoImage
  }

  /** The state before the first command: workdir `/`, user `root`. */
  function Initial(mint: Mint, commands: seq<string>): Ctx {
    Ctx(EmptyBlock(), EmptyODict(), "/", "root", true, InitialImage(mint, commands), [], 1)
  }

  /** The lazy creation at the top of each iteration: the stage of `image`
      (with ids), then the bucket of the current `(workdir, user)` (outside
      onbuild mode). Nothing else changes. */
  function Open(m: Mode, c: Ctx): (r: Ctx)
    ensures m.withIds ==> c.image in r.stages.vals
    ensures !m.onbuild && m.withIds ==> r.stages.vals[c.image].HasBucket(c.workdir, c.user)
    ensures !m.onbuild && !m.withIds ==> r.root.HasBucket(c.workdir, c.user)
    ensures r.workdir == c.workdir && r.user == c.user && r.first == c.first
    ensures r.image == c.image && r.onbuildLines == c.onbuildLines && r.draws == c.draws
    ensures m.withIds ==> r.root == c.root
    ensures !m.withIds ==> r.stages == c.stages
  {
    if m.withIds then
      var st := c.stages.Ensure(c.image, EmptyBlock());
      c.(stages := if m.onbuild then st else st.Put(c.image, st.vals[c.image].Open(c.workdir, c.user)))
    else if m.onbuild then c
    else c.(root := c.root.Open(c.workdir, c.user))
  }

  /** Whether `struct` can be taken: with ids, the current stage exists. */
  predicate HasStruct(m: Mode, c: Ctx) {
    m.withIds ==> c.image in c.stages.vals
  }

  /** `struct`: the current stage, or the root. */
  function StructOf(m: Mode, c: Ctx): Block
    requires HasStruct(m, c)
  {
    if m.withIds then c.stages.vals[c.image] else c.root
  }

  /** Storing a struct back under the key it was taken from. */
  function WithStructAt(m: Mode, c: Ctx, key: string, s: Block): Ctx {
    if m.withIds then c.(stages := c.stages.Put(key, s)) else c.(root := s)
  }

  /** `udata`: the struct itself in onbuild mode, otherwise its bucket. */
  function UData(m: Mode, c: Ctx, s: Block): Block
    requires !m.onbuild ==> s.HasBucket(c.workdir, c.user)
  {
    if m.onbuild then s else s.Bucket(c.workdir, c.user)
  }

  /** Writing `udata` back into the struct it belongs to. */
  function WithUData(m: Mode, c: Ctx, s: Block, u: Block): Block
    requires !m.onbuild ==> s.HasBucket(c.workdir, c.user)
  {
    if m.onbuild then u else s.WithBucket(c.workdir, c.user, u)
  }

  /** The `if 'k' not in d: d['k'] = start` / `d['k'] = flt(d['k'], value)` idiom. */
  function Accumulate(d: Block, k: string, start: Node, flt: (Node, string) -> Node, v: string): Block {
    d.Set(k, flt(d.Get(k, start), v))
  }

  /** The branches of parser.py:133-165 that write a field: into `struct` for
      MAINTAINER, LABEL, EXPOSE, ENV and VOLUME, into `udata` (the bucket, or
      the struct itself in onbuild mode) for RUN, CMD, ADD, COPY and
      ENTRYPOINT. The other instructions leave the struct as it is. */
  function Write(m: Mode, f: Filters, c: Ctx, s: Block, instr: Instruction, v: string): Block
    requires !m.onbuild ==> s.HasBucket(c.workdir, c.user)
  {
    var u := UData(m, c, s);
    match instr
    case MAINTAINER => s.Set("maintainer", f.maintainerFilter(v))
    case RUN => WithUData(m, c, s, Accumulate(u, "run", List([]), f.runFilter, v))
    case CMD => WithUData(m, c, s, Accumulate(u, "cmd", List([]), f.cmdFilter, v))
    case LABEL => Accumulate(s, "label", Dict(EmptyODict()), f.labelFilter, v)
    case EXPOSE => Accumulate(s, "expose", List([]), f.exposeFilter, v)
    case ENV => Accumulate(s, "env", Dict(EmptyODict()), f.envFilter, v)
    case ADD => WithUData(m, c, s, Accumulate(u, "add", List([]), f.addFilter, v))
    case COPY => WithUData(m, c, s, Accumulate(u, "copy", List([]), f.copyFilter, v))
    case ENTRYPOINT => WithUData(m, c, s, u.Set("entrypoint", f.entrypointFilter(v)))
    case VOLUME => Accumulate(s, "volume", List([]), f.volumeFilter, v)
    case _ => s
  }

  /** The FROM branch (parser.py:125-132). With container ids, every FROM but
      the first draws a new id and stores a fresh stage under it, while
      `struct` stays the dictionary taken at the top of the iteration, which
      is no longer stored anywhere if the new id equals its key. Otherwise
      FROM writes `from` into the struct and clears `first`. */
  function FromEffect(m: Mode, f: Filters, mint: Mint, c: Ctx, s: Block, v: string): Effect {
    if m.withIds && !c.first then
      var id: string := mint(v, c.draws);
      var stage := EmptyBlock().Set("from", f.fromFilter(v));
      Effect(c.(stages := c.stages.Put(id, stage), image := id, draws := c.draws + 1), s, id != c.image)
    else
      Effect(c.(first := false), s.Set("from", f.fromFilter(v)), true)
  }

  /** The `if/elif` chain of parser.py:125-174 for instruction `instr` and
      argument `v`, with `struct` = `s`: FROM, the three loop-variable updates,
      and the field writes. Only ONBUILD touches `onbuild_lines`, by appending. */
  function Dispatch(m: Mode, f: Filters, mint: Mint, c: Ctx, s: Block, instr: Instruction, v: string): (e: Effect)
    requires !m.onbuild ==> s.HasBucket(c.workdir, c.user)
    ensures e.ctx.onbuildLines == if instr == ONBUILD then c.onbuildLines + [v] else c.onbuildLines
  {
    match instr
    case FROM => FromEffect(m, f, mint, c, s, v)
    case USER => Effect(c.(user := v), s, true)
    case WORKDIR => Effect(c.(workdir := v), s, true)
    case ONBUILD => Effect(c.(onbuildLines := c.onbuildLines + [v]), s, true)
    case _ => Effect(c, Write(m, f, c, s, instr, v), true)
  }

  /** The end of a recognised iteration: when there are ONBUILD lines,
      `struct['onbuild']` is recomputed by a fresh flat parse of all of them,
      whose failure is the whole call's; the struct is then stored back under
      `key` unless a FROM detached it. Only the stored struct changes. */
  function Settle(m: Mode, f: Filters, mint: Mint, key: string, e: Effect): (r: Option<Ctx>)
    ensures r.Some? ==> r.value.workdir == e.ctx.workdir && r.value.user == e.ctx.user
    ensures r.Some? ==> r.value.first == e.ctx.first && r.value.image == e.ctx.image
    ensures r.Some? ==> r.value.onbuildLines == e.ctx.onbuildLines && r.value.draws == e.ctx.draws
    decreases TotalLength(e.ctx.onbuildLines), 4
  {
    var lines := e.ctx.onbuildLines;
    if lines == [] then
      Some(if e.attached then WithStructAt(m, e.ctx, key, e.struct) else e.ctx)
    else match Run(Mode(true, false), f, mint, lines)
      case None => None
      case Some(sub) =>
        var s3 := e.struct.Set("onbuild", Sub(sub));
        Some(if e.attached then WithStructAt(m, e.ctx, key, s3) else e.ctx)
  }

  /** A recognised instruction `instr` with argument `v` on the variables
      `ready` left by the lazy creation: the `if/elif` chain, then the ONBUILD
      refresh and the write-back of the struct. */
  function Recognised(m: Mode, f: Filters, mint: Mint, ready: Ctx, instr: Instruction, v: string): (r: Option<Ctx>)
    requires HasStruct(m, ready) && (!m.onbuild ==> StructOf(m, ready).HasBucket(ready.workdir, ready.user))
    ensures r.Some? ==> r.value.onbuildLines == if instr == ONBUILD then ready.onbuildLines + [v] else ready.onbuildLines
    decreases TotalLength(ready.onbuildLines) + |v| + 1, 0
  {
    var e := Dispatch(m, f, mint, ready, StructOf(m, ready), instr, v);
    TotalLengthSnoc(ready.onbuildLines, v);
    Settle(m, f, mint, ready.image, e)
  }

  /** One iteration of the loop on the token `t` of its command: open the
      bucket, then raise on a blank command, stop at an unknown keyword, or
      carry out a recognised one. */
  function Step(m: Mode, f: Filters, mint: Mint, c: Ctx, t: Token): (o: Outcome)
    ensures o.Halt? <==> t.Unknown?
    ensures o.Next? ==> t.Instr? && TotalLength(o.ctx.onbuildLines) < TotalLength(c.onbuildLines) + Weight(t)
    decreases TotalLength(c.onbuildLines) + Weight(t), 1
  {
    match t
    case Blank => Fail
    case Unknown => Halt(Open(m, c))
    case Instr(instr, v) =>
      match Recognised(m, f, mint, Open(m, c), instr, v)
      case None => Fail
      case Some(next) =>
        TotalLengthSnoc(c.onbuildLines, v);
        Next(next)
  }

  /** The loop from state `c` over `commands`: the final state, or `None` when
      an iteration raises. */
  function Exec(m: Mode, f: Filters, mint: Mint, commands: seq<string>, c: Ctx): Option<Ctx>
    decreases TotalLength(c.onbuildLines) + TotalLength(commands), 2
  {
    if commands == [] then Some(c)
    else match Step(m, f, mint, c, Tokenize(commands[0]))
      case Fail => None
      case Halt(c') => Some(c')
      case Next(c') => Exec(m, f, mint, commands[1..], c')
  }

  /** What `parse(commands, onbuid, with_container_id)` returns, or `None` when
      it raises IndexError. */
  function Run(m: Mode, f: Filters, mint: Mint, commands: seq<string>): Option<Doc>
    decreases TotalLength(commands), 3
  {
    match Exec(m, f, mint, commands, Initial(mint, commands))
    case None => None
    case Some(c) => Some(if m.withIds then Staged(c.stages) else Flat(c.root))
  }

  /** The `if/elif` chain of parser.py:125-174 on the loop's variables `c` and
      on `struct` (the stage or root taken at the top of the iteration). */
  method Apply(m: Mode, f: Filters, mint: Mint, c: Ctx, s: Block, instr: Instruction, value: string)
    returns (e: Effect)
    requires !m.onbuild ==> s.HasBucket(c.workdir, c.user)
    ensures e == Dispatch(m, f, mint, c, s, instr, value)
  {
    var stages, workdir, user, first, image, onbuildLines, draws :=
      c.stages, c.workdir, c.user, c.first, c.image, c.onbuildLines, c.draws;
    var struct := s;
    var attached := true;
    if instr == FROM {
      if m.withIds && !first {
        image := mint(value, draws);
        draws := draws + 1;
        stages := stages.Put(image, EmptyBlock());
        stages := stages.Put(image, stages.vals[image].Set("from", f.fromFilter(value)));
        attached := image != c.image;
        assert stages.vals == c.stages.vals[image := EmptyBlock().Set("from", f.fromFilter(value))];
      } else {
        first := false;
        struct := struct.Set("from", f.fromFilter(value));
      }
    } else if instr == USER {
      user := value;
    } else if instr == WORKDIR {
      workdir := value;
    } else if instr == ONBUILD {
      onbuildLines := onbuildLines + [value];
    } else {
      struct := WriteField(m, f, c, s, instr, value);
    }
    e := Effect(Ctx(c.root, stages, workdir, user, first, image, onbuildLines, draws), struct, attached);
  }

  /** The branches of parser.py:133-165 that write a field of `struct` or of
      `udata` (the bucket of the current `(workdir, user)`, or the struct
      itself in onbuild mode). */
  method WriteField(m: Mode, f: Filters, c: Ctx, s: Block, instr: Instruction, value: string)
    returns (struct: Block)
    requires !m.onbuild ==> s.HasBucket(c.workdir, c.user)
    ensures struct == Write(m, f, c, s, instr, value)
  {
    struct := s;
    var udata := if m.onbuild then struct else struct.Bucket(c.workdir, c.user);
    if instr == MAINTAINER {
      struct := struct.Set("maintainer", f.maintainerFilter(value));
    } else if instr == RUN {
      udata := udata.Set("run", f.runFilter(udata.Get("run", List([])), value));
      struct := if m.onbuild then udata else struct.WithBucket(c.workdir, c.user, udata);
    } else if instr == CMD {
      udata := udata.Set("cmd", f.cmdFilter(udata.Get("cmd", List([])), value));
      struct := if m.onbuild then udata else struct.WithBucket(c.workdir, c.user, udata);
    } else if instr == LABEL {
      struct := struct.Set("label", f.labelFilter(struct.Get("label", Dict(EmptyODict())), value));
    } else if instr == EXPOSE {
      struct := struct.Set("expose", f.exposeFilter(struct.Get("expose", List([])), value));
    } else if instr == ENV {
      struct := struct.Set("env", f.envFilter(struct.Get("env", Dict(EmptyODict())), value));
    } else if instr == ADD {
      udata := udata.Set("add", f.addFilter(udata.Get("add", List([])), value));
      struct := if m.onbuild then udata else struct.WithBucket(c.workdir, c.user, udata);
    } else if instr == COPY {
      udata := udata.Set("copy", f.copyFilter(udata.Get("copy", List([])), value));
      struct := if m.onbuild then udata else struct.WithBucket(c.workdir, c.user, udata);
    } else if instr == ENTRYPOINT {
      udata := udata.Set("entrypoint", f.entrypointFilter(value));
      struct := if m.onbuild then udata else struct.WithBucket(c.workdir, c.user, udata);
    } else if instr == VOLUME {
      struct := struct.Set("volume", f.volumeFilter(struct.Get("volume", List([])), value));
    }
  }

  /** The top of the loop body (parser.py:87-118): create the current stage
      (with ids) and the `(workdir, user)` bucket (outside onbuild mode) if
      missing, and take `struct`. */
  method OpenStruct(m: Mode, c: Ctx) returns (ready: Ctx, struct: Block)
    ensures ready == Open(m, c)
    ensures HasStruct(m, ready) && struct == StructOf(m, ready)
  {
    var root, stages, image := c.root, c.stages, c.image;
    if m.withIds {
      if image !in stages.vals {
        stages := stages.Put(image, EmptyBlock());
      }
      if !m.onbuild {
        stages := stages.Put(image, stages.vals[image].Open(c.workdir, c.user));
      }
      struct := stages.vals[image];
    } else {
      if !m.onbuild {
        root := root.Open(c.workdir, c.user);
      }
      struct := root;
    }
    ready := c.(root := root, stages := stages);
  }

  /** One pass of the loop body of `parse` (parser.py:86-178) on the loop's
      variables `c`: the lazy creation, the tokenisation (raising on a command
      without a token), the stop at an unknown keyword, the `if/elif` chain,
      the ONBUILD re-parse and the write-back of `struct`. */
  method Iterate(m: Mode, f: Filters, mint: Mint, c: Ctx, command: string) returns (o: Outcome)
    ensures o == Step(m, f, mint, c, Tokenize(command))
    decreases TotalLength(c.onbuildLines) + |command|, 0
  {
    var ready, struct := OpenStruct(m, c);
    var t := Tokenize(command);
    if t.Blank? {
      return Fail;
    }
    if t.Unknown? {
      return Halt(ready);
    }
    var instr, value := t.instr, t.arg;
    var e := Apply(m, f, mint, ready, struct, instr, value);
    var next := e.ctx;
    struct := e.struct;
    TotalLengthSnoc(c.onbuildLines, value);
    if |next.onbuildLines| > 0 {
      var sub := Parse(next.onbuildLines, true, false, f, mint);
      if sub.None? {
        assert Recognised(m, f, mint, ready, instr, value) == None;
        return Fail;
      }
      struct := struct.Set("onbuild", Sub(sub.value));
    }
    if e.attached {
      next := WithStructAt(m, next, c.image, struct);
    }
    assert Recognised(m, f, mint, ready, instr, value) == Some(next);
    return Next(next);
  }

  /** `parse` (parser.py:76-180) over a list of commands; `None` when it raises. */
  method Parse(commands: seq<string>, onbuild: bool, withIds: bool, f: Filters, mint: Mint)
    returns (doc: Option<Doc>)
    ensures doc == Run(Mode(onbuild, withIds), f, mint, commands)
    decreases TotalLength(commands), 2
  {
    var m := Mode(onbuild, withIds);
    var name := DistName(commands);
    var image := if name.Some? then mint(name.value, 0) else NoImage;
    var c := Ctx(EmptyBlock(), EmptyODict(), "/", "root", true, image, [], 1);
    assert c == Initial(mint, commands);
    var i := 0;
    while i < |commands|
      invariant i <= |commands|
      invariant TotalLength(c.onbuildLines) + TotalLength(commands[i..]) <= TotalLength(commands)
      invariant Exec(m, f, mint, commands[i..], c) == Exec(m, f, mint, commands, Initial(mint, commands))
    {
      ExecAt(m, f, mint, commands, i, c);
      var o := Iterate(m, f, mint, c, commands[i]);
      if o.Fail? {
        return None;
      }
      c := o.ctx;
      if o.Halt? {
        break;
      }
      i := i + 1;
    }
    if i == |commands| {
      assert commands[i..] == [];
    }
    doc := Some(if withIds then Staged(c.stages) else Flat(c.root));
  }

  /** `parse(path)` (parser.py:76-82 with `_to_commands`, parser.py:65-73):
      the file's lines, already read and split, are joined into logical
      lines, which are then parsed. */
  method ParseDockerfile(lines: seq<string>, withIds: bool, f: Filters, mint: Mint)
    returns (doc: Option<Doc>)
    ensures doc == Run(Mode(false, withIds), f, mint, Reconstruct(lines))
  {
    var commands := ParseRawDockerfile(lines);
    doc := Parse(commands, false, withIds, f, mint);
  }

  /** One step of `Exec` from position `i`. */
  lemma ExecAt(m: Mode, f: Filters, mint: Mint, commands: seq<string>, i: nat, c: Ctx)
    requires i < |commands|
    ensures TotalLength(commands[i..]) == |commands[i]| + TotalLength(commands[i + 1..])
    ensures Exec(m, f, mint, commands[i..], c) ==
      match Step(m, f, mint, c, Tokenize(commands[i]))
      case Fail => None
      case Halt(c') => Some(c')
      case Next(c') => Exec(m, f, mint, commands[i + 1..], c')
  {
    assert commands[i..][0] == commands[i] && commands[i..][1..] == commands[i + 1..];
  }
}

=== FILE: ParserProperties.dfy ===
/**
  What `parse` in dockerfile_parser/parser.py guarantees, stated about one
  recognised instruction (`Recognised`), one iteration (`Step`) and the whole
  loop (`Exec`, `Run`).
 */
module ParserProperties {
  import opened Strings
  import opened Document
  import opened Commands
  import opened Parser
  import opened Lines
  import opened FieldTable

  /** The preconditions of `Recognised`: `ready` is what the lazy creation left. */
  predicate Ready(m: Mode, ready: Ctx) {
    HasStruct(m, ready) && (!m.onbuild ==> StructOf(m, ready).HasBucket(ready.workdir, ready.user))
  }

  /** The ONBUILD lines after a recognised command with keyword `instr` and argument `v`. */
  function LinesAfter(lines: seq<string>, instr: Instruction, v: string): seq<string> {
    if instr == ONBUILD then lines + [v] else lines
  }

  /** A command without a token raises IndexError: the whole call fails, whatever follows. */
  lemma TokenlessRaises(m: Mode, f: Filters, mint: Mint, c: Ctx, command: string, rest: seq<string>)
    requires IsBlank(command)
    ensures Exec(m, f, mint, [command] + rest, c) == None
  {
    assert ([command] + rest)[0] == command;
  }

  /** An unrecognised keyword ends the loop (`break`): only the lazy creation of
      that iteration happens, and whatever follows is never looked at, even
      lines that could not be tokenised. */
  lemma UnknownStops(m: Mode, f: Filters, mint: Mint, c: Ctx, command: string, rest: seq<string>)
    requires Words(command) != [] && Keyword(command) !in Instructions
    ensures Exec(m, f, mint, [command] + rest, c) == Some(Open(m, c))
  {
    assert ([command] + rest)[0] == command;
  }

  /** A recognised instruction raises exactly when the re-parse of the ONBUILD
      lines it leaves raises; otherwise the loop variables are those the
      `if/elif` chain left, since the ONBUILD refresh and the write-back touch
      only the stored struct. */
  lemma RecognisedVars(m: Mode, f: Filters, mint: Mint, ready: Ctx, instr: Instruction, v: string)
    requires Ready(m, ready)
    ensures var e := Dispatch(m, f, mint, ready, StructOf(m, ready), instr, v);
      var r := Recognised(m, f, mint, ready, instr, v);
      var lines := LinesAfter(ready.onbuildLines, instr, v);
      (r.None? <==> lines != [] && Run(Mode(true, false), f, mint, lines).None?) &&
      (r.Some? ==>
        r.value.workdir == e.ctx.workdir && r.value.user == e.ctx.user && r.value.first == e.ctx.first &&
        r.value.image == e.ctx.image && r.value.draws == e.ctx.draws && r.value.onbuildLines == lines)
  {
  }

  /** A recognised instruction raises exactly when the re-parse of the ONBUILD
      lines it leaves raises; otherwise ONBUILD appends its argument to the
      ONBUILD lines and nothing else touches them. */
  lemma StepOnbuildLines(m: Mode, f: Filters, mint: Mint, c: Ctx, instr: Instruction, v: string)
    ensures var o := Step(m, f, mint, c, Instr(instr, v));
      var lines := LinesAfter(c.onbuildLines, instr, v);
      (o.Fail? <==> lines != [] && Run(Mode(true, false), f, mint, lines).None?) &&
      (o.Next? ==> o.ctx.onbuildLines == lines)
  {
    RecognisedVars(m, f, mint, Open(m, c), instr, v);
  }

  /** An iteration never removes ONBUILD lines. */
  lemma StepLinesGrow(m: Mode, f: Filters, mint: Mint, c: Ctx, t: Token)
    ensures Step(m, f, mint, c, t).Next? ==> c.onbuildLines <= Step(m, f, mint, c, t).ctx.onbuildLines
  {
    if t.Instr? {
      StepOnbuildLines(m, f, mint, c, t.instr, t.arg);
    }
  }

  /** Over a whole run the ONBUILD lines are only ever appended to. */
  lemma {:induction false} ExecOnbuildLines(m: Mode, f: Filters, mint: Mint, commands: seq<string>, c: Ctx)
    requires Exec(m, f, mint, commands, c).Some?
    ensures c.onbuildLines <= Exec(m, f, mint, commands, c).value.onbuildLines
    decreases |commands|
  {
    if commands != [] {
      var t := Tokenize(commands[0]);
      var o := Step(m, f, mint, c, t);
      StepLinesGrow(m, f, mint, c, t);
      if o.Next? {
        ExecOnbuildLines(m, f, mint, commands[1..], o.ctx);
      }
    }
  }

  /** USER and WORKDIR only change their loop variable, so the next iteration
      opens the bucket of the new `(workdir, user)`; the stage, the draws, the
      ONBUILD lines and the other variable stay as they were. They raise only
      when the ONBUILD lines gathered so far do, and write no field: the
      document is what the lazy creation left, with at most the ONBUILD
      refresh of the struct. */
  lemma StepUserWorkdir(m: Mode, f: Filters, mint: Mint, c: Ctx, instr: Instruction, v: string)
    requires instr == USER || instr == WORKDIR
    ensures var o := Step(m, f, mint, c, Instr(instr, v));
      (o.Next? <==> c.onbuildLines == [] || Run(Mode(true, false), f, mint, c.onbuildLines).Some?) &&
      (o.Next? ==>
        o.ctx.user == (if instr == USER then v else c.user) &&
        o.ctx.workdir == (if instr == WORKDIR then v else c.workdir) &&
        o.ctx.image == c.image && o.ctx.draws == c.draws && o.ctx.first == c.first &&
        o.ctx.onbuildLines == c.onbuildLines)
    ensures var o := Step(m, f, mint, c, Instr(instr, v));
      var ready := Open(m, c);
      o.Next? ==>
        o.ctx == WithStructAt(m, ready.(user := o.ctx.user, workdir := o.ctx.workdir), c.image,
          Refreshed(f, mint, StructOf(m, ready), c.onbuildLines))
  {
    var ready := Open(m, c);
    StepOnbuildLines(m, f, mint, c, instr, v);
    StepStores(m, f, mint, c, instr, v);
    assert LinesAfter(c.onbuildLines, instr, v) == c.onbuildLines;
    assert Write(m, f, ready, StructOf(m, ready), instr, v) == StructOf(m, ready) by {
      WriteTable(m, f, ready, StructOf(m, ready), instr, v);
    }
  }

  /** The struct after the ONBUILD refresh: unchanged while there are no
      ONBUILD lines, otherwise holding their flat parse under `onbuild`. */
  function Refreshed(f: Filters, mint: Mint, s: Block, lines: seq<string>): (r: Block)
    ensures r.workdirs == s.workdirs && s.keys <= r.keys
  {
    if lines == [] then s
    else match Run(Mode(true, false), f, mint, lines)
      case None => s
      case Some(sub) => s.Set("onbuild", Sub(sub))
  }

  /** Every recognised instruction but FROM: the new state is what the lazy
      creation left, with the loop variable of USER, WORKDIR or ONBUILD
      updated, and the struct, written by `Write` (see `WriteTable`) and
      refreshed, stored back under the current stage or as the root. */
  lemma StepStores(m: Mode, f: Filters, mint: Mint, c: Ctx, instr: Instruction, v: string)
    requires instr != FROM
    ensures var o := Step(m, f, mint, c, Instr(instr, v));
      var ready := Open(m, c);
      var lines := LinesAfter(c.onbuildLines, instr, v);
      o.Next? ==>
        o.ctx == WithStructAt(m,
          ready.(user := if instr == USER then v else c.user,
                 workdir := if instr == WORKDIR then v else c.workdir,
                 onbuildLines := lines),
          c.image,
          Refreshed(f, mint, Write(m, f, ready, StructOf(m, ready), instr, v), lines))
  {
    var ready := Open(m, c);
    var s := StructOf(m, ready);
    DispatchWrites(m, f, mint, ready, s, instr, v);
    SettleRefreshed(m, f, mint, ready.image, Dispatch(m, f, mint, ready, s, instr, v));
  }

  /** The `if/elif` chain for any instruction but FROM: the struct is what
      `Write` makes of it and stays attached; only the loop variable of USER,
      WORKDIR or ONBUILD changes. */
  lemma DispatchWrites(m: Mode, f: Filters, mint: Mint, c: Ctx, s: Block, instr: Instruction, v: string)
    requires !m.onbuild ==> s.HasBucket(c.workdir, c.user)
    requires instr != FROM
    ensures Dispatch(m, f, mint, c, s, instr, v) ==
      Effect(c.(user := if instr == USER then v else c.user,
                workdir := if instr == WORKDIR then v else c.workdir,
                onbuildLines := LinesAfter(c.onbuildLines, instr, v)),
             Write(m, f, c, s, instr, v), true)
  {
    WriteTable(m, f, c, s, instr, v);
  }

  /** The write-back: an attached struct is refreshed and stored under `key`;
      a detached one is dropped. */
  lemma SettleRefreshed(m: Mode, f: Filters, mint: Mint, key: string, e: Effect)
    ensures var r := Settle(m, f, mint, key, e);
      r.Some? ==>
        r.value == if e.attached then WithStructAt(m, e.ctx, key, Refreshed(f, mint, e.struct, e.ctx.onbuildLines)) else e.ctx
  {
  }

  /** FROM without container ids, or the first FROM with them: the filtered
      argument is written as `from` onto the struct taken at the top of the
      iteration (the root, or the initial stage keyed by the first FROM's
      id), `first` is cleared, and the struct, refreshed with the ONBUILD
      lines, is stored back where it was taken from. */
  lemma StepFromInPlace(m: Mode, f: Filters, mint: Mint, c: Ctx, v: string)
    requires !m.withIds || c.first
    ensures var o := Step(m, f, mint, c, Instr(FROM, v));
      var ready := Open(m, c);
      o.Next? ==>
        o.ctx == WithStructAt(m, ready.(first := false), c.image,
          Refreshed(f, mint, StructOf(m, ready).Set("from", f.fromFilter(v)), c.onbuildLines))
  {
    var ready := Open(m, c);
    var s := StructOf(m, ready);
    assert Dispatch(m, f, mint, ready, s, FROM, v) == Effect(ready.(first := false), s.Set("from", f.fromFilter(v)), true);
    SettleRefreshed(m, f, mint, ready.image, Dispatch(m, f, mint, ready, s, FROM, v));
  }

  /** Without container ids FROM stores its filtered argument as the
      document's `from`, so a later FROM overwrites an earlier one; the
      workdir and user carry over. */
  lemma StepFromFlat(m: Mode, f: Filters, mint: Mint, c: Ctx, v: string)
    requires !m.withIds
    ensures var o := Step(m, f, mint, c, Instr(FROM, v));
      o.Next? ==>
        "from" in o.ctx.root.fields &&
        o.ctx.root.fields["from"] == f.fromFilter(v) &&
        !o.ctx.first && o.ctx.workdir == c.workdir && o.ctx.user == c.user
  {
    RecognisedVars(m, f, mint, Open(m, c), FROM, v);
  }

  /** With container ids, a FROM after the first draws a new id and starts a
      fresh stage under it that holds only `from`; the previous stage keeps
      its contents (with the ONBUILD refresh) unless the new id equals its
      key, in which case the fresh stage replaces it. */
  lemma StepFromStaged(m: Mode, f: Filters, mint: Mint, c: Ctx, v: string)
    requires m.withIds && !c.first
    ensures var o := Step(m, f, mint, c, Instr(FROM, v));
      var id: string := mint(v, c.draws);
      var prev := StructOf(m, Open(m, c));
      o.Next? ==>
        o.ctx.image == id && o.ctx.draws == c.draws + 1 &&
        o.ctx.workdir == c.workdir && o.ctx.user == c.user && !o.ctx.first &&
        id in o.ctx.stages.vals &&
        o.ctx.stages.vals[id] == EmptyBlock().Set("from", f.fromFilter(v)) &&
        (id != c.image ==>
          c.image in o.ctx.stages.vals &&
          (c.onbuildLines == [] ==> o.ctx.stages.vals[c.image] == prev) &&
          (c.onbuildLines != [] ==>
            Run(Mode(true, false), f, mint, c.onbuildLines).Some? &&
            o.ctx.stages.vals[c.image] ==
              prev.Set("onbuild", Sub(Run(Mode(true, false), f, mint, c.onbuildLines).value))))
  {
    RecognisedVars(m, f, mint, Open(m, c), FROM, v);
  }

  /** Outside container-id mode, once there are ONBUILD lines every recognised
      instruction leaves `onbuild` holding a flat parse of all of them. */
  lemma StepOnbuildRefresh(m: Mode, f: Filters, mint: Mint, c: Ctx, t: Token)
    requires !m.withIds
    ensures var o := Step(m, f, mint, c, t);
      o.Next? && o.ctx.onbuildLines != [] ==>
        Run(Mode(true, false), f, mint, o.ctx.onbuildLines).Some? &&
        "onbuild" in o.ctx.root.fields &&
        o.ctx.root.fields["onbuild"] == Sub(Run(Mode(true, false), f, mint, o.ctx.onbuildLines).value)
  {
    if t.Instr? {
      var ready := Open(m, c);
      RecognisedVars(m, f, mint, ready, t.instr, t.arg);
      DispatchOrder(m, f, mint, ready, StructOf(m, ready), t.instr, t.arg);
    }
  }

  /** The lazy creation replaces nothing: with ids, the only stage it adds is
      the current one, appended to the key order when missing; every other
      stage is kept as it was, and the current stage, created empty when
      missing, only has its bucket opened (outside onbuild mode); without ids only the root has
      its bucket opened, and in onbuild mode nothing changes at all. */
  lemma OpenContents(m: Mode, c: Ctx)
    ensures m.withIds ==> forall k | k in c.stages.vals && k != c.image ::
      k in Open(m, c).stages.vals && Open(m, c).stages.vals[k] == c.stages.vals[k]
    ensures m.withIds ==>
      var old_ := if c.image in c.stages.vals then c.stages.vals[c.image] else EmptyBlock();
      Open(m, c).stages.vals[c.image] == if m.onbuild then old_ else old_.Open(c.workdir, c.user)
    ensures !m.withIds && m.onbuild ==> Open(m, c) == c
    ensures !m.withIds && !m.onbuild ==> Open(m, c) == c.(root := c.root.Open(c.workdir, c.user))
    ensures m.withIds ==>
      Open(m, c).stages.keys == (if c.image in c.stages.vals then c.stages.keys else c.stages.keys + [c.image]) &&
      Open(m, c).stages.vals.Keys == c.stages.vals.Keys + {c.image}
  {
  }

  /** The lazy creation only appends keys: the `workdir` level to the document
      or stage, the stage to the stages. */
  lemma OpenOrder(m: Mode, c: Ctx)
    ensures c.root.keys <= Open(m, c).root.keys
    ensures c.stages.keys <= Open(m, c).stages.keys
  {
  }

  /** A field write only appends to the key order of the struct, and never
      creates the `workdir` level. */
  lemma WriteOrder(m: Mode, f: Filters, c: Ctx, s: Block, instr: Instruction, v: string)
    requires !m.onbuild ==> s.HasBucket(c.workdir, c.user)
    ensures s.keys <= Write(m, f, c, s, instr, v).keys
    ensures s.workdirs == None ==> Write(m, f, c, s, instr, v).workdirs == None
  {
  }

  /** The `if/elif` chain only appends to the key order of the struct and of
      the stages; without ids it leaves the struct attached. */
  lemma DispatchOrder(m: Mode, f: Filters, mint: Mint, c: Ctx, s: Block, instr: Instruction, v: string)
    requires !m.onbuild ==> s.HasBucket(c.workdir, c.user)
    ensures var e := Dispatch(m, f, mint, c, s, instr, v);
      s.keys <= e.struct.keys && c.stages.keys <= e.ctx.stages.keys &&
      (s.workdirs == None ==> e.struct.workdirs == None) &&
      (!m.withIds ==> e.attached)
  {
    WriteOrder(m, f, c, s, instr, v);
  }

  /** The write-back only appends keys. */
  lemma SettleOrder(m: Mode, f: Filters, mint: Mint, key: string, e: Effect)
    requires Settle(m, f, mint, key, e).Some?
    ensures m.withIds ==> e.ctx.stages.keys <= Settle(m, f, mint, key, e).value.stages.keys
    ensures !m.withIds && e.attached ==> e.struct.keys <= Settle(m, f, mint, key, e).value.root.keys
    ensures !m.withIds && e.attached && e.struct.workdirs == None ==>
      Settle(m, f, mint, key, e).value.root.workdirs == None
  {
  }

  /** A recognised instruction only appends to the key order of the document
      (without ids) or of the stages (with ids), and creates no `workdir`
      level in a document that has none. */
  lemma RecognisedOrder(m: Mode, f: Filters, mint: Mint, ready: Ctx, instr: Instruction, v: string)
    requires Ready(m, ready) && Recognised(m, f, mint, ready, instr, v).Some?
    ensures var r := Recognised(m, f, mint, ready, instr, v).value;
      (!m.withIds ==> ready.root.keys <= r.root.keys) &&
      (m.withIds ==> ready.stages.keys <= r.stages.keys) &&
      (!m.withIds && ready.root.workdirs == None ==> r.root.workdirs == None)
  {
    var s := StructOf(m, ready);
    var e := Dispatch(m, f, mint, ready, s, instr, v);
    DispatchOrder(m, f, mint, ready, s, instr, v);
    SettleOrder(m, f, mint, ready.image, e);
  }

  /** One iteration only appends to the key order of the document (without
      ids) or of the stages (with ids). */
  lemma StepOrder(m: Mode, f: Filters, mint: Mint, c: Ctx, t: Token)
    requires !Step(m, f, mint, c, t).Fail?
    ensures !m.withIds ==> c.root.keys <= Step(m, f, mint, c, t).ctx.root.keys
    ensures m.withIds ==> c.stages.keys <= Step(m, f, mint, c, t).ctx.stages.keys
  {
    OpenOrder(m, c);
    if t.Instr? {
      RecognisedOrder(m, f, mint, Open(m, c), t.instr, t.arg);
    }
  }

  /** The key order of the document, or of the stages, only grows over a run. */
  lemma {:induction false} ExecOrder(m: Mode, f: Filters, mint: Mint, commands: seq<string>, c: Ctx)
    requires Exec(m, f, mint, commands, c).Some?
    ensures !m.withIds ==> c.root.keys <= Exec(m, f, mint, commands, c).value.root.keys
    ensures m.withIds ==> c.stages.keys <= Exec(m, f, mint, commands, c).value.stages.keys
    decreases |commands|
  {
    if commands != [] {
      var t := Tokenize(commands[0]);
      StepOrder(m, f, mint, c, t);
      var o := Step(m, f, mint, c, t);
      if o.Next? {
        ExecOrder(m, f, mint, commands[1..], o.ctx);
      }
    }
  }

  /** Everything below a struct only grows from `a` to `b`: its key order,
      the key order of its workdir level, that of each user level, and that
      of each bucket; no workdir, user or bucket entry disappears. */
  ghost predicate TreeGrows(a: Block, b: Block) {
    a.keys <= b.keys &&
    (a.workdirs.Some? ==> b.workdirs.Some? && a.workdirs.value.keys <= b.workdirs.value.keys) &&
    (forall w | a.workdirs.Some? && w in a.workdirs.value.vals ::
      b.workdirs.Some? && w in b.workdirs.value.vals &&
      a.workdirs.value.vals[w].keys <= b.workdirs.value.vals[w].keys) &&
    (forall w, u | a.HasBucket(w, u) :: b.HasBucket(w, u) && a.Bucket(w, u).keys <= b.Bucket(w, u).keys)
  }

  lemma TreeGrowsTrans(a: Block, b: Block, c: Block)
    requires TreeGrows(a, b) && TreeGrows(b, c)
    ensures TreeGrows(a, c)
  {
  }

  /** The lazy creation of a bucket only adds to a struct. */
  lemma OpenGrows(b: Block, w: string, u: string)
    ensures TreeGrows(b, b.Open(w, u))
  {
    forall x, y | b.HasBucket(x, y)
      ensures b.Open(w, u).HasBucket(x, y) && b.Bucket(x, y).keys <= b.Open(w, u).Bucket(x, y).keys
    {
      OpenKeepsBuckets(b, w, u, x, y);
    }
  }

  /** A field write only adds to a struct. */
  lemma WriteGrows(m: Mode, f: Filters, c: Ctx, s: Block, instr: Instruction, v: string)
    requires !m.onbuild ==> s.HasBucket(c.workdir, c.user)
    ensures TreeGrows(s, Write(m, f, c, s, instr, v))
  {
    WriteTable(m, f, c, s, instr, v);
    var r := Write(m, f, c, s, instr, v);
    if SlotOf(instr).Some? {
      var slot := SlotOf(instr).value;
      if m.onbuild || !slot.inBucket {
        StoredGrows(r, s, slot.key, NewValue(f, instr, slot, s, v));
      } else {
        var b := s.Bucket(c.workdir, c.user);
        assert r == s.WithBucket(c.workdir, c.user, r.Bucket(c.workdir, c.user));
        BucketGrows(s, c.workdir, c.user, r.Bucket(c.workdir, c.user));
      }
    }
  }

  lemma StoredGrows(r: Block, d: Block, k: string, val: Node)
    requires Stored(r, d, k, val)
    ensures TreeGrows(d, r)
  {
  }

  /** Replacing a bucket by one whose key order extends it only adds. */
  lemma BucketGrows(s: Block, w: string, u: string, b: Block)
    requires s.HasBucket(w, u) && s.Bucket(w, u).keys <= b.keys
    ensures TreeGrows(s, s.WithBucket(w, u, b))
  {
  }

  /** Setting a field, as FROM and the ONBUILD refresh do, only adds to a struct. */
  lemma SetGrows(s: Block, k: string, val: Node)
    ensures TreeGrows(s, s.Set(k, val))
  {
  }

  lemma RefreshedGrows(f: Filters, mint: Mint, s: Block, lines: seq<string>)
    ensures TreeGrows(s, Refreshed(f, mint, s, lines))
  {
  }

  /** Without container ids, an iteration only adds to the document at every
      level: its key order, the workdir and user levels' key orders and the
      buckets' key orders only grow, and no bucket disappears. */
  lemma StepTreeGrows(m: Mode, f: Filters, mint: Mint, c: Ctx, t: Token)
    requires !m.withIds && !Step(m, f, mint, c, t).Fail?
    ensures TreeGrows(c.root, Step(m, f, mint, c, t).ctx.root)
  {
    var ready := Open(m, c);
    if !m.onbuild {
      OpenGrows(c.root, c.workdir, c.user);
    }
    assert TreeGrows(c.root, ready.root);
    if t.Instr? {
      if t.instr == FROM {
        StepFromInPlace(m, f, mint, c, t.arg);
        var s1 := ready.root.Set("from", f.fromFilter(t.arg));
        SetGrows(ready.root, "from", f.fromFilter(t.arg));
        RefreshedGrows(f, mint, s1, c.onbuildLines);
        TreeGrowsTrans(c.root, ready.root, s1);
        TreeGrowsTrans(c.root, s1, Refreshed(f, mint, s1, c.onbuildLines));
      } else {
        StepStores(m, f, mint, c, t.instr, t.arg);
        var s1 := Write(m, f, ready, ready.root, t.instr, t.arg);
        var lines := LinesAfter(c.onbuildLines, t.instr, t.arg);
        WriteGrows(m, f, ready, ready.root, t.instr, t.arg);
        RefreshedGrows(f, mint, s1, lines);
        TreeGrowsTrans(c.root, ready.root, s1);
        TreeGrowsTrans(c.root, s1, Refreshed(f, mint, s1, lines));
      }
    }
  }

  /** Without container ids, a whole run only adds to the document at every
      level: keys keep their first-creation order in every scope, and a
      bucket once created is never re-created. */
  lemma {:induction false} ExecTreeGrows(m: Mode, f: Filters, mint: Mint, commands: seq<string>, c: Ctx)
    requires !m.withIds && Exec(m, f, mint, commands, c).Some?
    ensures TreeGrows(c.root, Exec(m, f, mint, commands, c).value.root)
    decreases |commands|
  {
    if commands != [] {
      var t := Tokenize(commands[0]);
      StepTreeGrows(m, f, mint, c, t);
      var o := Step(m, f, mint, c, t);
      if o.Next? {
        ExecTreeGrows(m, f, mint, commands[1..], o.ctx);
        TreeGrowsTrans(c.root, o.ctx.root, Exec(m, f, mint, commands[1..], o.ctx).value.root);
      }
    }
  }

  /** Token `t` is a FROM after the first whose drawn id is `k`: with ids,
      the fresh stage it stores replaces the stage stored under `k`. */
  predicate Collides(mint: Mint, c: Ctx, t: Token, k: string) {
    t.Instr? && t.instr == FROM && !c.first && mint(t.arg, c.draws) == k
  }

  /** With container ids, an iteration leaves every stage other than the
      current one as it was, unless a FROM draws its id. */
  lemma StepOtherStages(m: Mode, f: Filters, mint: Mint, c: Ctx, t: Token, k: string)
    requires m.withIds && k in c.stages.vals && k != c.image && !Collides(mint, c, t, k)
    requires !Step(m, f, mint, c, t).Fail?
    ensures var o := Step(m, f, mint, c, t);
      k in o.ctx.stages.vals && o.ctx.stages.vals[k] == c.stages.vals[k]
  {
    OpenContents(m, c);
    if t.Instr? {
      StepRecognised(m, f, mint, c, t.instr, t.arg);
      RecognisedOtherStages(m, f, mint, Open(m, c), t.instr, t.arg, k);
    }
  }

  /** A recognised instruction is carried out on what the lazy creation left. */
  lemma StepRecognised(m: Mode, f: Filters, mint: Mint, c: Ctx, instr: Instruction, v: string)
    ensures Ready(m, Open(m, c))
    ensures var o := Step(m, f, mint, c, Instr(instr, v));
      o.Next? ==> Recognised(m, f, mint, Open(m, c), instr, v) == Some(o.ctx)
  {
  }

  lemma RecognisedOtherStages(m: Mode, f: Filters, mint: Mint, ready: Ctx, instr: Instruction, v: string, k: string)
    requires Ready(m, ready) && m.withIds && k in ready.stages.vals && k != ready.image
    requires !(instr == FROM && !ready.first && mint(v, ready.draws) == k)
    requires Recognised(m, f, mint, ready, instr, v).Some?
    ensures var r := Recognised(m, f, mint, ready, instr, v).value;
      k in r.stages.vals && r.stages.vals[k] == ready.stages.vals[k]
  {
    var s := StructOf(m, ready);
    var e := Dispatch(m, f, mint, ready, s, instr, v);
    DispatchStages(m, f, mint, ready, s, instr, v);
    SettleRefreshed(m, f, mint, ready.image, e);
  }

  /** The `if/elif` chain changes the stages only at a FROM after the first,
      with ids, which stores a fresh stage under the id it draws. */
  lemma DispatchStages(m: Mode, f: Filters, mint: Mint, c: Ctx, s: Block, instr: Instruction, v: string)
    requires !m.onbuild ==> s.HasBucket(c.workdir, c.user)
    ensures var e := Dispatch(m, f, mint, c, s, instr, v);
      e.ctx.stages ==
        if instr == FROM && m.withIds && !c.first
        then c.stages.Put(mint(v, c.draws), EmptyBlock().Set("from", f.fromFilter(v)))
        else c.stages
    ensures var e := Dispatch(m, f, mint, c, s, instr, v);
      e.attached == (instr != FROM || !m.withIds || c.first || mint(v, c.draws) != c.image)
    ensures Dispatch(m, f, mint, c, s, instr, v).ctx.image ==
      if instr == FROM && m.withIds && !c.first then mint(v, c.draws) else c.image
  {
  }

  /** With container ids, an iteration only adds to the current stage at
      every level, unless a FROM draws its id and replaces it. */
  lemma StepStageGrows(m: Mode, f: Filters, mint: Mint, c: Ctx, t: Token)
    requires m.withIds && c.image in c.stages.vals && !Collides(mint, c, t, c.image)
    requires !Step(m, f, mint, c, t).Fail?
    ensures var o := Step(m, f, mint, c, t);
      c.image in o.ctx.stages.vals && TreeGrows(c.stages.vals[c.image], o.ctx.stages.vals[c.image])
  {
    var ready := Open(m, c);
    OpenContents(m, c);
    var s := StructOf(m, ready);
    var s0 := c.stages.vals[c.image];
    if !m.onbuild {
      OpenGrows(s0, c.workdir, c.user);
    }
    assert TreeGrows(s0, s);
    if t.Instr? {
      StepRecognised(m, f, mint, c, t.instr, t.arg);
      RecognisedStageGrows(m, f, mint, ready, t.instr, t.arg);
      TreeGrowsTrans(s0, s, Step(m, f, mint, c, t).ctx.stages.vals[c.image]);
    }
  }

  lemma RecognisedStageGrows(m: Mode, f: Filters, mint: Mint, ready: Ctx, instr: Instruction, v: string)
    requires Ready(m, ready) && m.withIds
    requires !(instr == FROM && !ready.first && mint(v, ready.draws) == ready.image)
    requires Recognised(m, f, mint, ready, instr, v).Some?
    ensures var r := Recognised(m, f, mint, ready, instr, v).value;
      ready.image in r.stages.vals && TreeGrows(StructOf(m, ready), r.stages.vals[ready.image])
  {
    var s := StructOf(m, ready);
    var e := Dispatch(m, f, mint, ready, s, instr, v);
    DispatchStages(m, f, mint, ready, s, instr, v);
    SettleRefreshed(m, f, mint, ready.image, e);
    RefreshedGrows(f, mint, e.struct, e.ctx.onbuildLines);
    if instr == FROM {
      if ready.first {
        assert e.struct == s.Set("from", f.fromFilter(v));
        SetGrows(s, "from", f.fromFilter(v));
      } else {
        assert e.struct == s;
      }
    } else {
      DispatchWrites(m, f, mint, ready, s, instr, v);
      WriteGrows(m, f, ready, s, instr, v);
    }
    TreeGrowsTrans(s, e.struct, Refreshed(f, mint, e.struct, e.ctx.onbuildLines));
  }

  /** A re-parse of ONBUILD lines never creates the `workdir` level: every
      field goes straight onto the document. */
  lemma StepOnbuildFlat(f: Filters, mint: Mint, c: Ctx, t: Token)
    requires c.root.workdirs == None && !Step(Mode(true, false), f, mint, c, t).Fail?
    ensures Step(Mode(true, false), f, mint, c, t).ctx.root.workdirs == None
  {
    if t.Instr? {
      RecognisedOrder(Mode(true, false), f, mint, c, t.instr, t.arg);
    }
  }

  lemma {:induction false} ExecOnbuildFlat(f: Filters, mint: Mint, commands: seq<string>, c: Ctx)
    requires c.root.workdirs == None && Exec(Mode(true, false), f, mint, commands, c).Some?
    ensures Exec(Mode(true, false), f, mint, commands, c).value.root.workdirs == None
    decreases |commands|
  {
    if commands != [] {
      var t := Tokenize(commands[0]);
      var o := Step(Mode(true, false), f, mint, c, t);
      StepOnbuildFlat(f, mint, c, t);
      if o.Next? {
        ExecOnbuildFlat(f, mint, commands[1..], o.ctx);
      }
    }
  }

  /** What `parse(lines, onbuid=True)` returns is a flat document. */
  lemma RunOnbuildFlat(f: Filters, mint: Mint, commands: seq<string>)
    ensures var r := Run(Mode(true, false), f, mint, commands);
      r.Some? ==> r.value.Flat? && r.value.root.workdirs == None
  {
    if Run(Mode(true, false), f, mint, commands).Some? {
      ExecOnbuildFlat(f, mint, commands, Initial(mint, commands));
    }
  }

  /** With container ids, every recognised instruction other than FROM stores
      the flat parse of all ONBUILD lines gathered so far in the current
      stage. The lines are never cleared at a FROM, so a later stage with a
      recognised instruction after its FROM receives the ONBUILD lines of the
      stages before it. */
  lemma StepOnbuildRefreshStaged(m: Mode, f: Filters, mint: Mint, c: Ctx, instr: Instruction, v: string)
    requires m.withIds && instr != FROM
    ensures var o := Step(m, f, mint, c, Instr(instr, v));
      o.Next? && o.ctx.onbuildLines != [] ==>
        o.ctx.image == c.image && c.image in o.ctx.stages.vals &&
        Run(Mode(true, false), f, mint, o.ctx.onbuildLines).Some? &&
        "onbuild" in o.ctx.stages.vals[c.image].fields &&
        o.ctx.stages.vals[c.image].fields["onbuild"] == Sub(Run(Mode(true, false), f, mint, o.ctx.onbuildLines).value)
  {
    var ready := Open(m, c);
    var e := Dispatch(m, f, mint, ready, StructOf(m, ready), instr, v);
    DispatchKeepsStage(m, f, mint, ready, StructOf(m, ready), instr, v);
    RecognisedVars(m, f, mint, ready, instr, v);
    if Settle(m, f, mint, ready.image, e).Some? && e.ctx.onbuildLines != [] {
      SettleStores(m, f, mint, ready.image, e);
    }
  }

  /** Every instruction but FROM leaves the struct attached and the stage key as it was. */
  lemma DispatchKeepsStage(m: Mode, f: Filters, mint: Mint, c: Ctx, s: Block, instr: Instruction, v: string)
    requires !m.onbuild ==> s.HasBucket(c.workdir, c.user)
    requires instr != FROM
    ensures var e := Dispatch(m, f, mint, c, s, instr, v);
      e.attached && e.ctx.image == c.image
  {
  }

  /** The write-back of an attached struct after ONBUILD lines exist stores
      their flat parse under `onbuild`. */
  lemma SettleStores(m: Mode, f: Filters, mint: Mint, key: string, e: Effect)
    requires Settle(m, f, mint, key, e).Some? && e.attached && e.ctx.onbuildLines != []
    ensures var r := Settle(m, f, mint, key, e).value;
      var sub := Run(Mode(true, false), f, mint, e.ctx.onbuildLines);
      var s := if m.withIds then r.stages.vals[key] else r.root;
      sub.Some? && (m.withIds ==> key in r.stages.vals) &&
      "onbuild" in s.fields && s.fields["onbuild"] == Sub(sub.value)
  {
  }

  /** A token that is the ONBUILD instruction. */
  predicate IsOnbuild(t: Token) {
    t.Instr? && t.instr == ONBUILD
  }

  /** A list of commands none of which is blank or an ONBUILD, started with no
      ONBUILD lines, never raises and gathers no ONBUILD lines. */
  lemma {:induction false} ExecWithoutOnbuild(m: Mode, f: Filters, mint: Mint, commands: seq<string>, c: Ctx)
    requires c.onbuildLines == []
    requires forall i | 0 <= i < |commands| :: !IsBlank(commands[i]) && !IsOnbuild(Tokenize(commands[i]))
    ensures Exec(m, f, mint, commands, c).Some?
    ensures Exec(m, f, mint, commands, c).value.onbuildLines == []
    decreases |commands|
  {
    if commands != [] {
      var t := Tokenize(commands[0]);
      assert !IsBlank(commands[0]) && !IsOnbuild(t);
      if t.Instr? {
        StepOnbuildLines(m, f, mint, c, t.instr, t.arg);
        var o := Step(m, f, mint, c, t);
        assert forall i | 0 <= i < |commands[1..]| :: commands[1..][i] == commands[i + 1];
        ExecWithoutOnbuild(m, f, mint, commands[1..], o.ctx);
      }
    }
  }

  /** `parse` of a Dockerfile without ONBUILD instructions always returns a
      document: the logical lines `_parse_raw_dockerfile` produces are never
      blank. */
  lemma RunWithoutOnbuild(withIds: bool, f: Filters, mint: Mint, lines: seq<string>)
    requires forall i | 0 <= i < |Reconstruct(lines)| :: !IsOnbuild(Tokenize(Reconstruct(lines)[i]))
    ensures Run(Mode(false, withIds), f, mint, Reconstruct(lines)).Some?
  {
    var commands := Reconstruct(lines);
    ReconstructNotBlank(lines);
    assert forall i | 0 <= i < |commands| :: commands[i] in commands;
    ExecWithoutOnbuild(Mode(false, withIds), f, mint, commands, Initial(mint, commands));
  }

  /** An ONBUILD without argument raises: its empty line is re-parsed at
      once, and an empty command has no token. */
  lemma BareOnbuildRaises(m: Mode, f: Filters, mint: Mint, c: Ctx, command: string, rest: seq<string>)
    requires Tokenize(command) == Instr(ONBUILD, "") && c.onbuildLines == []
    ensures Exec(m, f, mint, [command] + rest, c) == None
  {
    assert ([command] + rest)[0] == command;
    TokenlessRaises(Mode(true, false), f, mint, Initial(mint, [""]), "", []);
    assert [""] + [] == [""];
    StepOnbuildLines(m, f, mint, c, ONBUILD, "");
  }

  /** A command made of a single keyword token is that instruction with an
      empty argument. */
  lemma TokenizeAlone(command: string, instr: Instruction)
    requires |Words(command)| == 1 && Upper(Words(command)[0]) == Name(instr)
    ensures Tokenize(command) == Instr(instr, "")
  {
    ClassifyName(instr);
    assert Words(command)[1..] == [];
  }

  /** `ONBUILD` alone on a line is such a command. */
  lemma BareOnbuildToken()
    ensures Tokenize("ONBUILD") == Instr(ONBUILD, "")
  {
    var w := "ONBUILD";
    assert IsWord(w);
    WordOfPrefix(w, "");
    assert w + "" == w && w[|w|..] == "";
    assert Upper(w) == w;
    TokenizeAlone(w, ONBUILD);
  }
}

=== FILE: Strings.dfy ===
/**
  Byte-string primitives of Python 2 that the parser relies on: whitespace,
  `strip`/`rstrip`, `split()` on runs of whitespace, `split(' ')`,
  `' '.join`, `''.join` and `upper()`.
 */
module Strings {

  /** Whitespace as Python 2's `str.isspace` sees it: space, \t, \n, \v, \f, \r. */
  predicate IsSpace(c: char) {
    c == ' ' || c == '\t' || c == '\n' || c == '\r' || c == '\U{B}' || c == '\U{C}'
  }

  /** `not s.strip()`: the string is empty or made of whitespace only. */
  predicate IsBlank(s: string) {
    forall i | 0 <= i < |s| :: IsSpace(s[i])
  }

  /** A token of `split()`: non-empty and free of whitespace. */
  predicate IsWord(w: string) {
    w != [] && forall i | 0 <= i < |w| :: !IsSpace(w[i])
  }

  /** `s.rstrip()`: the longest prefix of `s` that does not end in whitespace. */
  function RStrip(s: string): (r: string)
    ensures |r| <= |s| && r == s[..|r|]
    ensures r == [] || !IsSpace(r[|r| - 1])
    ensures forall i | |r| <= i < |s| :: IsSpace(s[i])
  {
    if s != [] && IsSpace(s[|s| - 1]) then RStrip(s[..|s| - 1]) else s
  }

  /** `s.lstrip()`: the longest suffix of `s` that does not start with whitespace. */
  function LStrip(s: string): (r: string)
    ensures |r| <= |s| && r == s[|s| - |r|..]
    ensures r == [] || !IsSpace(r[0])
    ensures forall i | 0 <= i < |s| - |r| :: IsSpace(s[i])
  {
    if s != [] && IsSpace(s[0]) then LStrip(s[1..]) else s
  }

  /** `s.strip()`. */
  function Strip(s: string): (r: string)
    ensures r == [] || (!IsSpace(r[0]) && !IsSpace(r[|r| - 1]))
    ensures IsBlank(s) <==> r == []
  {
    LStrip(RStrip(s))
  }

  /** What `strip()` keeps is an infix of `s`: what it removes before and
      after it is whitespace only. */
  lemma StripInfix(s: string) returns (k: nat)
    ensures k + |Strip(s)| <= |s| && Strip(s) == s[k..k + |Strip(s)|]
    ensures IsBlank(s[..k]) && IsBlank(s[k + |Strip(s)|..])
  {
    var t := RStrip(s);
    var r := LStrip(t);
    assert Strip(s) == r;
    k := |t| - |r|;
    assert k + |r| == |t|;
    assert r == t[k..];
    SliceOfPrefix(s, t, k);
    assert IsBlank(s[..k]) by {
      forall i | 0 <= i < k ensures IsSpace(s[..k][i]) {
        assert s[..k][i] == t[i];
      }
    }
    assert IsBlank(s[|t|..]) by {
      forall i | 0 <= i < |s| - |t| ensures IsSpace(s[|t|..][i]) {
        assert s[|t|..][i] == s[|t| + i];
      }
    }
  }

  lemma SliceOfPrefix(s: string, t: string, k: nat)
    requires |t| <= |s| && t == s[..|t|] && k <= |t|
    ensures t[k..] == s[k..|t|]
  {
  }

  /** Stripping a string that neither starts nor ends with whitespace changes nothing. */
  lemma StripTrimmed(s: string)
    requires s == [] || (!IsSpace(s[0]) && !IsSpace(s[|s| - 1]))
    ensures Strip(s) == s
  {
  }

  /** Length of the leading run of non-whitespace characters. */
  function WordLength(s: string): (n: nat)
    ensures n <= |s|
    ensures forall i | 0 <= i < n :: !IsSpace(s[i])
    ensures n == |s| || IsSpace(s[n])
  {
    if s != [] && !IsSpace(s[0]) then 1 + WordLength(s[1..]) else 0
  }

  /** `s.split()`: the maximal runs of non-whitespace characters, in order. */
  function Words(s: string): (r: seq<string>)
    ensures forall w | w in r :: IsWord(w)
    decreases |s|
  {
    if s == [] then []
    else if IsSpace(s[0]) then Words(s[1..])
    else
      var n := WordLength(s);
      [s[..n]] + Words(s[n..])
  }

  /** The whitespace runs around and between the tokens of `s`: one before
      the first token, one between each two, one after the last. */
  function Gaps(s: string): (r: seq<string>)
    ensures |r| == |Words(s)| + 1
    decreases |s|
  {
    if s == [] then [""]
    else if IsSpace(s[0]) then
      var g := Gaps(s[1..]);
      [[s[0]] + g[0]] + g[1..]
    else
      [""] + Gaps(s[WordLength(s)..])
  }

  /** `gs[0] + ws[0] + gs[1] + ... + ws[n-1] + gs[n]`. */
  function Interleave(gs: seq<string>, ws: seq<string>): string
    requires |gs| == |ws| + 1
  {
    if ws == [] then gs[0] else gs[0] + ws[0] + Interleave(gs[1..], ws[1..])
  }

  /** The other direction of `split()`: `s` is its tokens separated by
      whitespace runs, the inner runs non-empty; as tokens hold no whitespace,
      this makes them the maximal runs of non-whitespace, in order. */
  lemma WordsSeparated(s: string)
    ensures Interleave(Gaps(s), Words(s)) == s
    ensures forall i | 0 <= i < |Gaps(s)| :: IsBlank(Gaps(s)[i])
    ensures forall i | 0 < i < |Words(s)| :: Gaps(s)[i] != []
  {
    InterleaveGaps(s);
    GapsBlank(s);
    InnerGaps(s);
  }

  lemma {:induction false} InterleaveGaps(s: string)
    ensures Interleave(Gaps(s), Words(s)) == s
    decreases |s|
  {
    if s == [] {
    } else if IsSpace(s[0]) {
      var t := s[1..];
      InterleaveGaps(t);
      InterleaveSpace(s[0], Gaps(t), Words(t));
      assert s == [s[0]] + t;
    } else {
      var n := WordLength(s);
      var t := s[n..];
      InterleaveGaps(t);
      InterleaveWord(s[..n], Gaps(t), Words(t));
      assert s == s[..n] + t;
    }
  }

  /** A character added to the first gap comes first. */
  lemma InterleaveSpace(c: char, gs: seq<string>, ws: seq<string>)
    requires |gs| == |ws| + 1
    ensures Interleave([[c] + gs[0]] + gs[1..], ws) == [c] + Interleave(gs, ws)
  {
    var hs := [[c] + gs[0]] + gs[1..];
    assert hs[0] == [c] + gs[0] && hs[1..] == gs[1..];
  }

  /** A token after an empty first gap comes first. */
  lemma InterleaveWord(w: string, gs: seq<string>, ws: seq<string>)
    requires |gs| == |ws| + 1
    ensures Interleave([""] + gs, [w] + ws) == w + Interleave(gs, ws)
  {
    var hs, vs := [""] + gs, [w] + ws;
    assert hs[0] == "" && vs[0] == w && vs != [];
    assert hs[1..] == gs && vs[1..] == ws;
    assert Interleave(hs, vs) == hs[0] + vs[0] + Interleave(gs, ws);
    assert "" + w == w;
  }

  lemma {:induction false} GapsBlank(s: string)
    ensures forall i | 0 <= i < |Gaps(s)| :: IsBlank(Gaps(s)[i])
    decreases |s|
  {
    if s == [] {
    } else if IsSpace(s[0]) {
      var t := s[1..];
      GapsBlank(t);
      var g := Gaps(t);
      var g0 := [s[0]] + g[0];
      assert IsBlank(g0) by {
        assert forall i | 1 <= i < |g0| :: g0[i] == g[0][i - 1];
      }
      assert Gaps(s) == [g0] + g[1..];
    } else {
      var t := s[WordLength(s)..];
      GapsBlank(t);
      assert Gaps(s) == [""] + Gaps(t);
    }
  }

  lemma {:induction false} InnerGaps(s: string)
    ensures forall i | 0 < i < |Words(s)| :: Gaps(s)[i] != []
    decreases |s|
  {
    if s == [] {
    } else if IsSpace(s[0]) {
      var t := s[1..];
      InnerGaps(t);
      assert Words(s) == Words(t);
      assert (Gaps(s))[1..] == (Gaps(t))[1..];
    } else {
      var n := WordLength(s);
      var t := s[n..];
      InnerGaps(t);
      var g := Gaps(t);
      assert Gaps(s) == [""] + g;
      assert |Words(s)| == |Words(t)| + 1;
      if Words(t) != [] {
        assert t != [] && IsSpace(t[0]);
        assert g[0] == [t[0]] + Gaps(t[1..])[0];
      }
    }
  }

  /** `' '.join(ws)`. */
  function JoinSpace(ws: seq<string>): string {
    if ws == [] then ""
    else if |ws| == 1 then ws[0]
    else ws[0] + " " + JoinSpace(ws[1..])
  }

  /** `''.join(ss)`. */
  function Concat(ss: seq<string>): string {
    if ss == [] then "" else ss[0] + Concat(ss[1..])
  }

  /** `sep.join(parts)` for a one-character separator. */
  function JoinWith(parts: seq<string>, sep: char): string {
    if parts == [] then ""
    else if |parts| == 1 then parts[0]
    else parts[0] + [sep] + JoinWith(parts[1..], sep)
  }

  /** `s.split(sep)` for a one-character separator. */
  function SplitOn(s: string, sep: char): (r: seq<string>)
    ensures |r| >= 1
  {
    if s == [] then [""]
    else
      var rest := SplitOn(s[1..], sep);
      if s[0] == sep then [""] + rest
      else [[s[0]] + rest[0]] + rest[1..]
  }

  /** No part of `s.split(sep)` holds the separator. */
  lemma {:induction false} SplitOnParts(s: string, sep: char)
    ensures forall p | p in SplitOn(s, sep) :: sep !in p
    decreases |s|
  {
    if s != [] {
      var rest := SplitOn(s[1..], sep);
      SplitOnParts(s[1..], sep);
      if s[0] != sep {
        assert rest[0] in rest && sep !in [s[0]] + rest[0];
        assert forall p | p in rest[1..] :: p in rest;
      }
    }
  }

  /** One direction of the `split(' ')` round trip: joining the parts back
      with the separator gives `s`. */
  lemma {:induction false} JoinWithSplitOn(s: string, sep: char)
    ensures JoinWith(SplitOn(s, sep), sep) == s
    decreases |s|
  {
    if s != [] {
      var rest := SplitOn(s[1..], sep);
      JoinWithSplitOn(s[1..], sep);
      assert s == [s[0]] + s[1..];
      if s[0] == sep {
        assert ([""] + rest)[1..] == rest;
        assert JoinWith([""] + rest, sep) == [sep] + JoinWith(rest, sep);
      } else {
        JoinWithFirst(s[0], rest, sep);
      }
    }
  }

  /** Gluing a character onto the first part glues it onto the join. */
  lemma JoinWithFirst(c: char, parts: seq<string>, sep: char)
    requires |parts| >= 1
    ensures JoinWith([[c] + parts[0]] + parts[1..], sep) == [c] + JoinWith(parts, sep)
  {
    var r := [[c] + parts[0]] + parts[1..];
    assert r[0] == [c] + parts[0] && r[1..] == parts[1..];
    if |parts| > 1 {
      assert [c] + parts[0] + [sep] + JoinWith(parts[1..], sep) == [c] + (parts[0] + [sep] + JoinWith(parts[1..], sep));
    }
  }

  /** The other direction of the `split(' ')` round trip: splitting a join of
      separator-free parts gives the parts back. */
  lemma {:induction false} SplitOnJoinWith(parts: seq<string>, sep: char)
    requires |parts| >= 1
    requires forall p | p in parts :: sep !in p
    ensures SplitOn(JoinWith(parts, sep), sep) == parts
    decreases |parts|
  {
    var p0 := parts[0];
    assert p0 in parts;
    if |parts| == 1 {
      SplitOnPrefix(p0, "", sep);
      assert p0 + "" == p0;
      assert parts == [p0];
    } else {
      var rest := parts[1..];
      assert forall p | p in rest :: p in parts;
      SplitOnJoinWith(rest, sep);
      var tail := [sep] + JoinWith(rest, sep);
      assert JoinWith(parts, sep) == p0 + tail;
      SplitOnPrefix(p0, tail, sep);
      assert tail[0] == sep && tail[1..] == JoinWith(rest, sep);
      assert SplitOn(tail, sep) == [""] + rest;
      assert p0 + "" == p0;
      assert parts == [p0] + rest;
    }
  }

  /** A separator-free prefix is glued onto the first part. */
  lemma {:induction false} SplitOnPrefix(w: string, s: string, sep: char)
    requires sep !in w
    ensures SplitOn(w + s, sep) == [w + SplitOn(s, sep)[0]] + SplitOn(s, sep)[1..]
    decreases |w|
  {
    if w == [] {
      var r := SplitOn(s, sep);
      assert w + s == s && w + r[0] == r[0];
      assert r == [r[0]] + r[1..];
    } else {
      var t := w[1..];
      assert sep !in t by { assert forall i | 0 <= i < |t| :: t[i] == w[i + 1]; }
      SplitOnPrefix(t, s, sep);
      assert (w + s)[0] == w[0] && (w + s)[1..] == t + s;
      assert w[0] != sep by { assert w[0] in w; }
      assert [w[0]] + (t + SplitOn(s, sep)[0]) == w + SplitOn(s, sep)[0];
    }
  }

  /** ASCII upper-casing of one character, as Python 2's `str.upper` does. */
  function UpperChar(c: char): char {
    if 'a' <= c <= 'z' then (c as int - 32) as char else c
  }

  /** `s.upper()`: every ASCII lower-case letter becomes its capital, every
      other character is kept. */
  function Upper(s: string): (r: string)
    ensures |r| == |s|
    ensures forall i | 0 <= i < |s| ::
      if 'a' <= s[i] <= 'z' then r[i] as int == s[i] as int - 32 else r[i] == s[i]
  {
    seq(|s|, i requires 0 <= i < |s| => UpperChar(s[i]))
  }

  /** A string has no `split()` token exactly when it is blank. */
  lemma {:induction false} WordsEmptyIffBlank(s: string)
    ensures Words(s) == [] <==> IsBlank(s)
    decreases |s|
  {
    if s != [] && IsSpace(s[0]) {
      WordsEmptyIffBlank(s[1..]);
      assert IsBlank(s) <==> IsBlank(s[1..]) by {
        assert forall i | 1 <= i < |s| :: s[i] == s[1..][i - 1];
      }
    }
  }

  /** A prefix of whitespace contributes no token. */
  lemma {:induction false} WordsSkipBlank(b: string, s: string)
    requires IsBlank(b)
    ensures Words(b + s) == Words(s)
    decreases |b|
  {
    if b == [] {
      assert b + s == s;
    } else {
      assert (b + s)[0] == b[0] && IsSpace(b[0]);
      assert (b + s)[1..] == b[1..] + s;
      assert IsBlank(b[1..]) by {
        assert forall i | 0 <= i < |b[1..]| :: b[1..][i] == b[i + 1];
      }
      WordsSkipBlank(b[1..], s);
      assert Words(b + s) == Words((b + s)[1..]);
    }
  }

  /** `split()` undoes `' '.join` on a sequence of tokens. */
  lemma {:induction false} WordsOfJoinSpace(ws: seq<string>)
    requires forall w | w in ws :: IsWord(w)
    ensures Words(JoinSpace(ws)) == ws
    decreases |ws|
  {
    if ws != [] {
      var w := ws[0];
      assert w in ws;
      if |ws| == 1 {
        WordOfPrefix(w, "");
        assert w + "" == w;
        assert ws == [w];
      } else {
        assert forall x | x in ws[1..] :: x in ws;
        WordsOfJoinSpace(ws[1..]);
        WordsConsSpace(w, JoinSpace(ws[1..]));
        assert ws == [w] + ws[1..];
      }
    }
  }

  /** A token, a space, then anything: the token is split off first. */
  lemma WordsConsSpace(w: string, t: string)
    requires IsWord(w)
    ensures Words(w + " " + t) == [w] + Words(t)
  {
    var rest := " " + t;
    assert w + " " + t == w + rest;
    WordOfPrefix(w, rest);
    assert (w + rest)[|w|..] == rest;
    assert IsBlank(" ");
    WordsSkipBlank(" ", t);
  }

  /** A token followed by nothing or by whitespace is split off whole. */
  lemma WordOfPrefix(w: string, rest: string)
    requires IsWord(w)
    requires rest == [] || IsSpace(rest[0])
    ensures Words(w + rest) == [w] + Words((w + rest)[|w|..])
  {
    WordLengthOfPrefix(w, rest);
    assert (w + rest)[..|w|] == w;
  }

  lemma {:induction false} WordLengthOfPrefix(w: string, rest: string)
    requires forall i | 0 <= i < |w| :: !IsSpace(w[i])
    requires rest == [] || IsSpace(rest[0])
    ensures WordLength(w + rest) == |w|
    decreases |w|
  {
    if w != [] {
      assert (w + rest)[1..] == w[1..] + rest;
      WordLengthOfPrefix(w[1..], rest);
    }
  }

  /** A `' '.join` of tokens neither starts nor ends with whitespace, so the
      `strip()` applied after it is the identity. */
  lemma {:induction false} JoinSpaceTrimmed(ws: seq<string>)
    requires forall w | w in ws :: IsWord(w)
    ensures var s := JoinSpace(ws); s == [] || (!IsSpace(s[0]) && !IsSpace(s[|s| - 1]))
    ensures ws != [] ==> JoinSpace(ws) != []
    decreases |ws|
  {
    if |ws| > 1 {
      assert ws[0] in ws;
      assert forall x | x in ws[1..] :: x in ws;
      JoinSpaceTrimmed(ws[1..]);
    } else if |ws| == 1 {
      assert ws[0] in ws;
    }
  }

  /** The words of `s` joined by single spaces are no longer than `s`, and the
      words after the first are strictly shorter than `s`. */
  lemma {:induction false} JoinWordsLength(s: string)
    ensures |JoinSpace(Words(s))| <= |s|
    ensures Words(s) != [] ==> |JoinSpace(Words(s)[1..])| < |s|
    decreases |s|
  {
    if s == [] {
    } else if IsSpace(s[0]) {
      JoinWordsLength(s[1..]);
    } else {
      var n := WordLength(s);
      var rest := s[n..];
      JoinWordsLength(rest);
      assert Words(s)[1..] == Words(rest);
      if rest != [] {
        assert IsSpace(rest[0]);
        JoinWordsLength(rest[1..]);
        assert Words(rest) == Words(rest[1..]);
      }
    }
  }

  lemma ConcatCons(x: string, ss: seq<string>)
    ensures Concat([x] + ss) == x + Concat(ss)
  {
    assert ([x] + ss)[0] == x && ([x] + ss)[1..] == ss;
  }

  /** `''.join` distributes over concatenation of the lists. */
  lemma {:induction false} ConcatAppend(a: seq<string>, b: seq<string>)
    ensures Concat(a + b) == Concat(a) + Concat(b)
    decreases |a|
  {
    if a == [] {
      assert a + b == b;
    } else {
      assert (a + b)[0] == a[0];
      assert (a + b)[1..] == a[1..] + b;
      ConcatAppend(a[1..], b);
      calc {
        Concat(a + b);
        a[0] + Concat(a[1..] + b);
        a[0] + (Concat(a[1..]) + Concat(b));
        (a[0] + Concat(a[1..])) + Concat(b);
      }
    }
  }
}

=== FILE: Wellformed.dfy ===
/**
  The document that `parse` in dockerfile_parser/parser.py builds is well
  formed at every level: each key order lists exactly the entries of its
  dictionary, once each, as Python's OrderedDict guarantees. The key-order
  properties of `ParserProperties` are therefore properties of the entries.
 */
module Wellformed {
  import opened Document
  import opened Commands
  import opened Parser
  import opened FieldTable
  import opened ParserProperties

  /** The loop's dictionaries are well formed: the root, the OrderedDict of
      stages, and every stage. */
  ghost predicate CtxValid(c: Ctx) {
    c.root.Valid() && StagesValid(c.stages)
  }

  ghost predicate StagesValid(stages: ODict<Block>) {
    stages.Valid() && forall k | k in stages.vals :: stages.vals[k].Valid()
  }

  /** A returned document is well formed. */
  ghost predicate DocValid(d: Doc) {
    match d
    case Flat(root) => root.Valid()
    case Staged(stages) => StagesValid(stages)
  }

  /** The variables before the first command hold empty dictionaries. */
  lemma InitialValid(mint: Mint, commands: seq<string>)
    ensures CtxValid(Initial(mint, commands))
  {
    EmptyValid();
  }

  /** Storing a well-formed stage keeps the stages well formed. */
  lemma PutStageValid(stages: ODict<Block>, k: string, s: Block)
    requires StagesValid(stages) && s.Valid()
    ensures StagesValid(stages.Put(k, s))
  {
    PutValid(stages, k, s);
  }

  /** The lazy creation keeps the dictionaries well formed, and the struct it
      hands to the `if/elif` chain is well formed. */
  lemma OpenCtxValid(m: Mode, c: Ctx)
    requires CtxValid(c)
    ensures CtxValid(Open(m, c)) && HasStruct(m, Open(m, c)) && StructOf(m, Open(m, c)).Valid()
  {
    if m.withIds {
      var st := c.stages.Ensure(c.image, EmptyBlock());
      if c.image !in c.stages.vals {
        EmptyValid();
        PutStageValid(c.stages, c.image, EmptyBlock());
      }
      if !m.onbuild {
        OpenValid(st.vals[c.image], c.workdir, c.user);
        PutStageValid(st, c.image, st.vals[c.image].Open(c.workdir, c.user));
      }
    } else if !m.onbuild {
      OpenValid(c.root, c.workdir, c.user);
    }
  }

  /** Storing a well-formed struct back keeps the dictionaries well formed. */
  lemma WithStructAtValid(m: Mode, c: Ctx, key: string, s: Block)
    requires CtxValid(c) && s.Valid()
    ensures CtxValid(WithStructAt(m, c, key, s))
  {
    if m.withIds {
      PutStageValid(c.stages, key, s);
    }
  }

  /** No field of the table is named `"workdir"`. */
  lemma SlotKeys(instr: Instruction)
    ensures SlotOf(instr).Some? ==> SlotOf(instr).value.key != "workdir"
  {
  }

  /** A field write sets the table's field, on the struct or on `udata`. */
  lemma WriteSlot(m: Mode, f: Filters, c: Ctx, s: Block, instr: Instruction, v: string)
    requires !m.onbuild ==> s.HasBucket(c.workdir, c.user)
    ensures var u := UData(m, c, s);
      Write(m, f, c, s, instr, v) ==
        if SlotOf(instr).None? then s
        else
          var slot := SlotOf(instr).value;
          if slot.inBucket then WithUData(m, c, s, u.Set(slot.key, NewValue(f, instr, slot, u, v)))
          else s.Set(slot.key, NewValue(f, instr, slot, s, v))
  {
  }

  /** A field write keeps the struct well formed: a struct-level field is a
      field other than `"workdir"`, and a bucket stays a bucket. */
  lemma WriteValid(m: Mode, f: Filters, c: Ctx, s: Block, instr: Instruction, v: string)
    requires s.Valid() && (!m.onbuild ==> s.HasBucket(c.workdir, c.user))
    ensures Write(m, f, c, s, instr, v).Valid()
  {
    WriteSlot(m, f, c, s, instr, v);
    SlotKeys(instr);
    if SlotOf(instr).Some? {
      var slot := SlotOf(instr).value;
      var u := UData(m, c, s);
      if slot.inBucket {
        var val := NewValue(f, instr, slot, u, v);
        SetValid(u, slot.key, val);
        if !m.onbuild {
          assert UsersValid(s.workdirs.value.vals[c.workdir]);
          WithBucketValid(s, c.workdir, c.user, u.Set(slot.key, val));
        }
      } else {
        SetValid(s, slot.key, NewValue(f, instr, slot, s, v));
      }
    }
  }

  /** The ONBUILD refresh keeps the struct well formed. */
  lemma RefreshedValid(f: Filters, mint: Mint, s: Block, lines: seq<string>)
    requires s.Valid()
    ensures Refreshed(f, mint, s, lines).Valid()
  {
    if lines != [] {
      match Run(Mode(true, false), f, mint, lines)
      case None =>
      case Some(sub) => SetValid(s, "onbuild", Sub(sub));
    }
  }

  /** A recognised instruction keeps the dictionaries well formed. */
  lemma RecognisedValid(m: Mode, f: Filters, mint: Mint, ready: Ctx, instr: Instruction, v: string)
    requires Ready(m, ready) && CtxValid(ready) && StructOf(m, ready).Valid()
    requires Recognised(m, f, mint, ready, instr, v).Some?
    ensures CtxValid(Recognised(m, f, mint, ready, instr, v).value)
  {
    var s := StructOf(m, ready);
    var e := Dispatch(m, f, mint, ready, s, instr, v);
    DispatchStages(m, f, mint, ready, s, instr, v);
    SettleRefreshed(m, f, mint, ready.image, e);
    if instr == FROM {
      if m.withIds && !ready.first {
        EmptyValid();
        SetValid(EmptyBlock(), "from", f.fromFilter(v));
        PutStageValid(ready.stages, mint(v, ready.draws), EmptyBlock().Set("from", f.fromFilter(v)));
        assert e.struct == s;
      } else {
        assert e.struct == s.Set("from", f.fromFilter(v));
        SetValid(s, "from", f.fromFilter(v));
      }
    } else {
      DispatchWrites(m, f, mint, ready, s, instr, v);
      WriteValid(m, f, ready, s, instr, v);
    }
    assert e.ctx.root == ready.root;
    assert CtxValid(e.ctx);
    RefreshedValid(f, mint, e.struct, e.ctx.onbuildLines);
    if e.attached {
      WithStructAtValid(m, e.ctx, ready.image, Refreshed(f, mint, e.struct, e.ctx.onbuildLines));
    }
  }

  /** An iteration that does not raise keeps the dictionaries well formed. */
  lemma StepValid(m: Mode, f: Filters, mint: Mint, c: Ctx, t: Token)
    requires CtxValid(c) && !Step(m, f, mint, c, t).Fail?
    ensures CtxValid(Step(m, f, mint, c, t).ctx)
  {
    OpenCtxValid(m, c);
    if t.Instr? {
      StepRecognised(m, f, mint, c, t.instr, t.arg);
      RecognisedValid(m, f, mint, Open(m, c), t.instr, t.arg);
    }
  }

  /** The loop keeps the dictionaries well formed. */
  lemma {:induction false} ExecValid(m: Mode, f: Filters, mint: Mint, commands: seq<string>, c: Ctx)
    requires CtxValid(c) && Exec(m, f, mint, commands, c).Some?
    ensures CtxValid(Exec(m, f, mint, commands, c).value)
    decreases |commands|
  {
    if commands != [] {
      var t := Tokenize(commands[0]);
      StepValid(m, f, mint, c, t);
      var o := Step(m, f, mint, c, t);
      if o.Next? {
        ExecValid(m, f, mint, commands[1..], o.ctx);
      }
    }
  }

  /** On well-formed blocks, a growing key order means growing contents: no
      field of the struct is lost. */
  lemma GrowsKeepsFields(a: Block, b: Block)
    requires a.Valid() && b.Valid() && TreeGrows(a, b)
    ensures a.fields.Keys <= b.fields.Keys
  {
    forall k | k in a.fields
      ensures k in b.fields
    {
      assert k in a.keys;
    }
  }

  /** On well-formed blocks, a growing bucket key order means that no field
      of the bucket is lost. */
  lemma GrowsKeepsBucketFields(a: Block, b: Block, w: string, u: string)
    requires a.Valid() && b.Valid() && TreeGrows(a, b) && a.HasBucket(w, u)
    ensures b.HasBucket(w, u) && a.Bucket(w, u).fields.Keys <= b.Bucket(w, u).fields.Keys
  {
    assert UsersValid(a.workdirs.value.vals[w]) && UsersValid(b.workdirs.value.vals[w]);
    var x, y := a.Bucket(w, u), b.Bucket(w, u);
    assert x.IsBucket() && y.IsBucket();
    forall k | k in x.fields
      ensures k in y.fields
    {
      assert k in x.keys;
    }
  }

  /** What `parse` returns is well formed at every level. */
  lemma RunValid(m: Mode, f: Filters, mint: Mint, commands: seq<string>)
    ensures var r := Run(m, f, mint, commands);
      r.Some? ==> DocValid(r.value)
  {
    if Run(m, f, mint, commands).Some? {
      InitialValid(mint, commands);
      ExecValid(m, f, mint, commands, Initial(mint, commands));
    }
  }
}
